=== FILE: README.md ===
# Verified model of the linked-account reply and autopost bot

`bot.py` is a Telegram bot. Its owners link their own Telegram accounts to it and assign chat
groups, each with a persona text, to those accounts. From then on every linked account runs a live
connection that does two things:

- It answers messages that reply to it in its assigned chats. A **reply quota** of 4 replies
  (members of the bot's group) or 1 reply (everyone else) applies per chat and 7-hour window.
- It runs an **autopost** loop that periodically answers the most recent suitable message in
  each assigned chat.

This project models in Dafny the decision logic and the bookkeeping underneath that traffic:

| module | file | what it holds |
|---|---|---|
| `Common` | `common.dfy` | `Option`; the connection key (owner, account id); the 25200 s window; `Filter`, Python's list comprehension with a test; `FirstWhere`, Python's `next(...)` lookup |
| `Activity` | `activity.dfy` | the three in-memory trackers of sent timestamps, replied-to ids and autoposted ids, as a class with map fields; pruning and the tier quota |
| `Reply` | `reply.dfy` | the ordered chain of checks of `handle_linked_user_message`, and the handler as a method over the tracker, with the send outcome and its single retry after a flood wait |
| `Autopost` | `autopost.dfy` | the per-chat scan of at most 100 recent messages, and one autopost cycle over an account's chat groups |
| `Registry` | `registry.dfy` | the live-connection registry (`linked_user_clients`, `client_tasks`, the started autopost loops); the reconciliation pass with its correction of stale account ids; unlinking; refresh of assigned chats |
| `Directory` | `directory.dfy` | the `user_data` and `chat_groups` directories as snapshots; unlinking, the upsert of a newly linked account, deleting a chat group, the persona text |
| `ChatInput` | `chat_input.dfy` | classification of a typed chat reference, and `handle_add_group` with its quota of 8 or 1 groups |

Code that changes state step by step is modelled as methods:

- the handler, a straight-line method over the tracker;
- the scan and the autopost cycle, with loop invariants;
- the reconciliation pass, with loop invariants;
- the upsert and retag loops of `save_user_data_info`, with loop invariants.

Each of these methods is proved against a pure function or a closed-form postcondition, and the
properties are proved as lemmas about those functions. List comprehensions and lookups are modelled as functions.

The following become parameters:

- **Outside facts:**
  - membership in the bot's group (`isMember`);
  - link detection (`containsLink`);
  - session authorization (`authorize`: a credential, mapped to the account's own id when it authorizes);
  - entity lookups (`byHandle`, `byId`);
  - the chat history a scan sees;
  - each send's outcome.
- **Clocks:** integer seconds (`now`, `startedAt`).

## Model

| member | source | states |
|---|---|---|
| Activity.Limit | bot.py:923-925 | the quota is 4 exactly for members, else 1 |
| Activity.PrunedExactly | bot.py:917-921 | a timestamp survives pruning iff it was recorded and is less than 25200 s old; pruning never lengthens the list |
| Activity.Pruned | bot.py:917-921 | pruning never lengthens the list, and after it every timestamp t satisfies now - t < 25200 |
| Activity.Admits | bot.py:917-927 | a non-member is admitted exactly when no reply is left in the window; nobody is admitted with 4 or more |
| Activity.PrunedIdempotent | bot.py:917-921 | pruning twice at the same instant equals pruning once |
| Activity.RecordedSendCounts | bot.py:917-968 | a send recorded at time s is kept, in order, by every later prune within the window |
| Activity.QuotaExhausted | bot.py:917-927 | when the quota's worth of in-window timestamps is recorded, the next check refuses |
| Activity.AgedSendFreesQuota | bot.py:917-927 | with at most the quota recorded, once one of them is 25200 s old the check admits again |
| Activity.Put | bot.py:907-915 | the nested entry is created on first use; the written entry holds the value, every other key and chat is untouched |
| Activity.Tracker.constructor | bot.py:121-123 | the three trackers start empty |
| Activity.Tracker.Admit | bot.py:907-927 | creates both reply entries if missing, stores the pruned timestamps, leaves the replied set as it was, and admits iff fewer than the quota remain |
| Activity.Tracker.RecordReply | bot.py:968-969 | appends the check's time to the timestamps and adds the message id to the replied set, nothing else |
| Activity.Tracker.OpenAutopost | bot.py:1067-1070 | creates the autopost entry if missing, keeping an existing one |
| Activity.Tracker.RecordAutopost | bot.py:1101-1110 | adds the answered message id to the chat's autopost set, nothing else |
| Reply.Screen | bot.py:873-895 | the checks before the tracker is consulted stop only with their own reasons; passing them means the chat is listened to, the message is not backlog, has text and no link |
| Reply.Decide | bot.py:907-946 | the tracker checks stop only with their own reasons; an answer uses the chat's persona and needs the quota to admit and the message not to have been answered |
| Reply.Evaluate | bot.py:873-946 | the tracker is consulted only after the screening passes; an answer needs the quota to admit and the message not to have been answered |
| Reply.RespondIffAllPass | bot.py:873-946 | a reply is attempted iff the chat is listened to, the author is not the account, the message is not older than the connection, has text without a link, the chat is assigned to the account, the quota admits, it replies to a message of the account, the author is not a bot and the message was not answered; the persona is that of the chat's first group record |
| Reply.Delivered | bot.py:954-966 | a reply goes out when the first send succeeds, or after a flood wait when the single retry succeeds; any other send failure abandons it |
| Reply.HandleMessage | bot.py:860-975 | the verdict is the chain's on the tracker as it was; a reply is sent iff the chain accepts and the send, or its single retry after a flood wait, goes through; runs stopped by the screening leave the tracker alone; the others leave the pruned timestamps, plus the time and the message id exactly when the reply was sent |
| Reply.Answer | bot.py:907-969 | the tracker-consulting part of the handler: prunes, checks the quota and thread, records only a delivered send |
| Reply.NoSecondReply | bot.py:943-969 | once a reply to a message is recorded, a redelivery of that message is never answered, whatever the time, the directory or the chat's later timestamps, as long as the replied set still holds the id |
| Reply.NeverOwnOrLinked | bot.py:873-883 | the account's own messages and messages with a link are never answered |
| Reply.NonMemberQuotaScenario | bot.py:917-927 | for a non-member, one reply within the window blocks the next qualifying message with QuotaFull, and after 25200 s the same message is answered |
| Autopost.Stale | bot.py:1075-1076 | a message the scan treats as stale would also have left the reply quota's window |
| Autopost.Eligible | bot.py:1077-1088 | a message the scan may take has text and was not used before in the chat |
| Autopost.Window100 | bot.py:1074 | a scan sees the first 100 messages of the history, or all of them when fewer |
| Autopost.PickFrom | bot.py:1074-1089 | a picked position lies in the scanned range |
| Autopost.Select | bot.py:1074-1089 | a selected message is among the 100 most recent |
| Autopost.PickFromSpec | bot.py:1074-1089 | the scan picks the first eligible message before any stale one, or nothing when a stale message or the end comes first |
| Autopost.SelectSpec | bot.py:1072-1093 | a selection is eligible, not already used in the chat, not stale, among the 100 most recent, and every more recent message is neither stale nor eligible; without a selection, every eligible message lies at or behind a stale one |
| Autopost.NeverPastStale | bot.py:1075-1076 | no message at or behind a stale one (older than 25200 s) is selected |
| Autopost.NoRepeatSelection | bot.py:1086-1103 | once the selected id is recorded, no later scan of the chat selects it again, whatever history it sees and whenever it runs |
| Autopost.Scan | bot.py:1072-1089 | the message-by-message scan selects exactly what the selection function does |
| Autopost.Step | bot.py:1063-1113 | one chat group adds at most one post, in that group's chat, and keeps the earlier posts; a scan that raised aborts the cycle without posting |
| Autopost.Run | bot.py:1063-1113 | a cycle over n groups makes at most n posts, each in the chat of one of those groups |
| Autopost.RunAbortedStable | bot.py:1105-1117 | after a failed retry the rest of the cycle does nothing |
| Autopost.StepAccounted | bot.py:1063-1113 | handling one chat group keeps each chat's record equal to its old record plus the messages answered there |
| Autopost.RunRecordsOnlyPosts | bot.py:1063-1113 | after any prefix of a cycle, each chat's record is its old record plus exactly the ids answered there; no answered id was recorded before; no message is answered twice |
| Autopost.AutopostCycle | bot.py:1055-1117 | without an account record the cycle changes nothing; otherwise the autopost records, the posts and the abort flag are those of the cycle function, which stops at a scan that raised or a failed retry; the reply trackers are untouched |
| Autopost.HandleGroup | bot.py:1063-1113 | one chat group: the tracker's autopost records, the posts and the abort flag become those of one cycle step, including the abort when reading the history or a sender raised |
| Autopost.OnePostPerChat | bot.py:1063-1113 | when the account's groups name distinct chats, a cycle posts at most once per chat |
| Autopost.DuplicateChatPostsTwice | bot.py:720-736 | a chat listed twice under one account gets two posts in one cycle |
| Autopost.FirstPerChatDistinct | bot.py:1063 | the groups merged per chat name no chat twice |
| Autopost.FirstPerChatCovers | bot.py:1063 | every chat of the account keeps a group after merging |
| Autopost.CycleOnePostPerChat | bot.py:1063-1113 | a cycle over the groups merged per chat handles every listed chat and posts at most once per chat |
| Registry.OwnerLinkedHas | bot.py:1155-1156 | an owner's visited records are exactly that owner with each of its accounts |
| Registry.EntriesSpec | bot.py:1155-1156 | the pass over `Registry.Entries` visits exactly the (owner, account) records of the directory: each visited record is an account listed under its owner, and each such account is visited |
| Registry.Attempt | bot.py:1157-1176 | a record connects iff it has a credential and the credential authorizes, under the owner and the canonical id |
| Registry.Connected | bot.py:1176-1193 | at most one autopost loop is started per visited record |
| Registry.ConnectedSpec | bot.py:1176-1177 | a key is connected iff some visited record connects under it |
| Registry.Clients | bot.py:1176-1178 | the keys of the pass's connection map are exactly the connected keys |
| Registry.ClientsSpec | bot.py:1157-1186 | each connection started at the pass's time, holds a credential of a record of the owner that authorizes as the key's account, and listens to that account's assigned chats |
| Registry.DesiredKeys | bot.py:1152-1204 | after a completed pass the live keys are exactly the (owner, canonical id) pairs of accounts with a non-empty credential that authorizes |
| Registry.CorrectAccount | bot.py:1171-1174 | only the stored id can change; for an account that connects it becomes the canonical id, otherwise the record is untouched |
| Registry.CorrectOwner | bot.py:1155-1174 | one owner's saved records are as many as before, in order, each with the same credential |
| Registry.Corrected | bot.py:1171-1174 | the saved directory has the same owners, in order, each with as many accounts |
| Registry.CorrectedSpec | bot.py:1171-1174 | the correction changes only the stored id, which becomes the canonical id for connected accounts; other records are untouched; a second pass corrects nothing |
| Registry.Registry.constructor | bot.py:119-124 | the registry starts empty, with a listener task exactly for each live connection (none) |
| Registry.Registry.Reconcile | bot.py:1150-1204 | connections become exactly those of the directory's authorized accounts; listener tasks of dropped keys go and every connected key has one, so listener tasks stay exactly the live keys; one autopost loop is started per connected record; the saved directory is the corrected one |
| Registry.Registry.ConnectOwner | bot.py:1155-1195 | one owner's accounts are visited in order, each connected or skipped as the pass function says, and the owner's records come back corrected |
| Registry.Registry.ConnectAccount | bot.py:1157-1195 | one record: skipped without credential or authorization, else its id is corrected and it is connected with a new listener task and autopost loop |
| Registry.Registry.DropStale | bot.py:1197-1204 | keys live before and not connected lose their connection and listener task |
| Registry.Registry.UnlinkAccount | bot.py:367-391 | both directories lose the account's records and the key loses its connection and listener task; listener tasks stay exactly the live keys |
| Registry.Registry.RefreshChats | bot.py:1128-1140 | every live connection listens to exactly the chats now assigned to its account; listener tasks stay exactly the live keys |
| Registry.Registry.NoteAddedChat | bot.py:744-750 | the key's live connection, if any, listens to the new chat, appended once; listener tasks stay exactly the live keys |
| Registry.PassesDuplicateAutopost | bot.py:1193 | two passes over a directory with a connected account leave two autopost loops for that account |
| Registry.Distinct | bot.py:1193 | the keys still without a loop, each once |
| Registry.OneLoopPerConnection | bot.py:1150-1204 | with the corrected pass, exactly one autopost loop per connected key and none for other keys |
| Directory.AccountChatGroups | bot.py:889-895 | an account record is found iff the owner has a record with that id |
| Directory.AssignedChats | bot.py:1181-1186 | a chat is listed iff some group of the account's record has that id |
| Directory.UnlinkUsers | bot.py:373-377 | the owner list keeps its length |
| Directory.UnlinkGroups | bot.py:379-383 | the owners of `chat_groups` are kept |
| Directory.UnlinkRemovesExactly | bot.py:367-383 | unlinking removes exactly the records of that id under that owner and keeps every other record and owner |
| Directory.UnlinkKeepsOrder | bot.py:374-377 | the remaining accounts keep their relative order |
| Directory.UnlinkIdempotent | bot.py:367-383 | a second unlink of the same account changes neither directory |
| Directory.Upserted | bot.py:594-603 | the new record is present afterwards; the first record with the new id is the one replaced, and no other record changes; the list grows, by the new record at the end, only when no record had the id |
| Directory.UpsertAccount | bot.py:594-603 | the `enumerate` loop computes exactly the upsert |
| Directory.RetagAccounts | bot.py:605-611 | every chat-group record of the owner gets the new id and keeps its groups |
| Directory.OwnerIndex | bot.py:590-592 | finds the owner's entry, or reports there is none |
| Directory.SaveLinkedAccount | bot.py:578-612 | the owner's entry is created at the end if missing; its account list becomes the upsert of the old list (or of an empty one); every other entry is untouched; every chat-group record of the owner is retagged and nothing else in `chat_groups` changes |
| Directory.DeleteChatGroup | bot.py:672-686 | deleting succeeds iff the account record exists; otherwise nothing changes |
| Directory.DeleteChatGroupSpec | bot.py:672-686 | after a successful delete, the first record of the account keeps exactly its groups with another id, in order; the owner's other records and all other owners are unchanged |
| Directory.IsSpace | bot.py:459 | blank, tab and line ends count as whitespace for `strip()`, and no visible ASCII character does |
| Directory.TrimLeft | bot.py:459 | leading whitespace is removed and nothing else |
| Directory.TrimRight | bot.py:459 | trailing whitespace is removed and nothing else |
| Directory.Strip | bot.py:459 | the stripped text is the input with exactly its leading and trailing whitespace removed: a contiguous middle part, with only whitespace before and after it, that neither starts nor ends with whitespace |
| Directory.TrimmedAt | bot.py:459 | trimming the front and then the back leaves the part of the input between its leading and its trailing whitespace |
| Directory.PersonalityText | bot.py:457-465 | the stored persona is at most 2000 characters and a prefix of the stripped input |
| Directory.PersonalityTextSpec | bot.py:457-465 | the stored persona equals the stripped input when it fits and is otherwise its first 2000 characters; it never starts with whitespace |
| Directory.SetPersonality | bot.py:757-798 | fails only for an unknown owner; other owners are unchanged |
| Directory.SetPersonalitySpec | bot.py:757-777 | for a known owner, exactly the first group with the id in the first record of the account gets the text as persona; every other group, and every record's id and group list, stay as they were |
| ChatInput.Classify | bot.py:699-713 | a reference starting with '@' is a handle, kept as typed; an all-digit reference is always a chat id; chat ids are never positive; a reference is rejected as invalid exactly when it is none of a handle, all digits, or '-100' followed by digits |
| ChatInput.AllDigits | bot.py:703-707 | an all-digit reference is non-empty and starts with neither '@' nor '-', so it is never read as a handle or as the '-100' form |
| ChatInput.DecimalBound | bot.py:704 | the value `int()` reads from n digits is below 10^n |
| ChatInput.DecimalAppend | bot.py:704 | `int()` of two digit strings joined is the first's value shifted by the second's length plus the second's value |
| ChatInput.DecimalInjective | bot.py:704-708 | digit strings of one length that `int()` reads as the same value are equal |
| ChatInput.MaxGroups | bot.py:726-727 | the chat-group quota per linked account is 8 exactly for members, else 1 |
| ChatInput.Resolve | bot.py:699-713 | an invalid reference resolves to nothing; a numeric id resolves when the lookup finds it, keeping the typed id |
| ChatInput.AddGroup | bot.py:689-736 | without a live client nothing is added; an addition touches only the owner's records |
| ChatInput.DigitIdValue | bot.py:703-705 | an all-digit input denotes the id -(100 * 10^n + value) |
| ChatInput.PrefixedFormAgrees | bot.py:703-709 | typing the digits with or without the '-100' prefix denotes the same chat |
| ChatInput.DigitIdsInjective | bot.py:703-705 | different digit inputs denote different chats |
| ChatInput.AddGroupSpec | bot.py:689-736 | adding succeeds iff the client exists, the input is valid and resolves, and the account has fewer groups than its quota; it then appends one group with an empty persona at the end of the account's record, adds that record at the end when missing, and leaves the owner's other records alone; a quota refusal means the quota was reached |
| ChatInput.AddResolved | bot.py:715-736 | once the chat has resolved, the only refusal is the quota; an addition adds the owner's key and leaves every other owner's records alone |
| ChatInput.AddResolvedSpec | bot.py:715-736 | once the chat has resolved, the group is added iff the account holds fewer groups than its quota; the new group is the resolved chat with an empty persona, at the end of the account's record, which is created at the end when missing; the owner's other records are unchanged |
| ChatInput.AppendToRecord | bot.py:718-732 | appending to the first record of the account, created at the end when missing, keeps it the first such record and changes no other record |
| ChatInput.AddGroupKeepsQuota | bot.py:726-736 | after an addition the account has a record, and it holds at most 8 (member) or 1 group |

## Left out

- Network, file and clock I/O are parameters, as listed above: Telegram calls, JSON files, Fernet encryption, `time.time()` and `datetime.now()`.
- All random and flood-wait sleeps are left out, and so is the back-off after an escaped exception. Because each handler run is one atomic step here, the model also leaves out what the reply delay (bot.py:948-950) allows: the quota and duplicate checks run before that sleep of up to 2600 s, and the record runs after it. Two qualifying messages, or two deliveries of one message, that arrive within the delay both pass those checks, even under a quota of 1, and both get answered.
- Activity.QuotaExhausted and Reply.NoSecondReply hold only when one handler run completes before the next one for the same chat starts. Runs that overlap during the reply delay are not modelled.
- Link detection (bot.py:978-983) is an uninterpreted predicate: it depends on Python regular expressions.
- Emoji removal (bot.py:1019-1036) is not part of this model.
- Text generation (bot.py:986-1016) is not part of this model. It does not influence any decision.
- Concurrency is not modelled: asyncio tasks, their interleaving and cancellation. Each handler run, each autopost cycle and each reconciliation pass is one atomic step.
- The onboarding and menu conversation is not part of this model. `check_for_updates` is modelled only through the assigned-chats refresh; its snapshot diffing is left out.
- Reply.HandleMessage: the author check uses the resolved sender. A message whose author cannot be resolved passes the own-message and bot checks. The autopost scan compares `sender_id`; Autopost.Eligible uses the resolved sender in the same way.
- Reply.HandleMessage: the start-time comparison is on integer seconds.
- Autopost.AutopostCycle: the cycle reads each chat group's history, time and send outcomes from `env`. A history of None stands for any exception raised while reading the history or resolving a sender (bot.py:1074, 1079). Such an exception escapes to bot.py:1115-1117 and ends the cycle. The wait before each cycle, the membership check and the reconnect are left out.
- Registry.Registry.Reconcile: the model assumes that opening a session and `get_me` raise nothing. In the code such an exception ends the pass part-way.
- Registry.Registry.Reconcile: one `now` stands for every connection's start time in the pass. The chat-group directory is one snapshot.
- Registry.Registry.Reconcile: `tasks` records which keys have a listener task registered, not which one. When a pass replaces a key's connection, the old connection is not disconnected and its listener is not cancelled. The model does not show this.
- Registry.Registry.UnlinkAccount: unlinking does not stop the account's autopost loop and does not clear its tracker entries. The code behaves this way, so the model does too.
- ChatInput.AddGroup: the digit test accepts ASCII digits only. Python's `isdigit` also accepts other Unicode digits.
- ChatInput.AddGroup: the live client is reduced to a flag.
- Directory.PersonalityText: the cut to 2000 characters counts Unicode code points as Python does. Surrogate pairs are not modelled.
- `process_personality_samples` (bot.py:810-857) produces fixed text. It is not part of this model.

## Findings

| source | as written | input that shows it | evidently intended | confidence | as-written member | corrected member |
|---|---|---|---|---|---|---|
| bot.py:720-736 | `handle_add_group` appends a chat group without checking whether the account already lists that chat, and the autopost cycle handles every listed group | an account listing the same chat twice, whose two most recent messages are both eligible: one cycle posts twice in that chat | at most one autopost per chat per cycle | medium, not executed | Autopost.DuplicateChatPostsTwice | Autopost.CycleOnePostPerChat |
| bot.py:1193 | every reconciliation pass starts a new autopost loop for every account it connects, and no pass stops one | a directory with one account whose credential authorizes, reconciled twice: two autopost loops run for the same key and both post in its chats | one autopost loop per live connection: keep the running loops of connected keys, stop the others, start one for each connected key without one | high, not executed | Registry.PassesDuplicateAutopost | Registry.OneLoopPerConnection |

`Autopost.AutopostCycle` keeps the code's behaviour: it handles every listed group. `Autopost.FirstPerChat` is the corrected group list, with only the first group of each chat. `Autopost.CycleOnePostPerChat` proves that a cycle over it handles every listed chat and posts at most once per chat. `Autopost.OnePostPerChat` shows that the code as written already keeps this bound whenever the listed chats are distinct.

`Registry.Registry.Reconcile` keeps the code's behaviour: its `autoposts` log grows by one entry per connected record on every pass. `Registry.LoopsAfterPass` is the corrected log, and `Registry.OneLoopPerConnection` proves that it holds each connected key exactly once.

=== FILE: activity.dfy ===
/** The in-memory activity tracker (bot.py:121-123): per connection key and chat, the
    timestamps of recent automated replies, the ids of messages already replied to, and
    the ids of messages already used for an autopost. Time is in whole seconds. */
module Activity {
  import opened Common

  /** Whether a timestamp is less than one window old at `now`. */
  function InWindow(now: int): int -> bool
  {
    t => now - t < Window
  }

  /** The timestamps a reply check keeps: those less than one window old at `now`. The result
      is never longer than the input, and every timestamp in it is less than 25200 s old. */
  function Pruned(ts: seq<int>, now: int): (r: seq<int>)
    ensures |r| <= |ts|
    ensures forall i :: 0 <= i < |r| ==> now - r[i] < Window
  {
    FilterAllKeep(ts, InWindow(now));
    Filter(ts, InWindow(now))
  }

  /** Reply quota per chat and window: 4 for members of the bot's group, 1 otherwise. */
  function Limit(isMember: bool): (n: nat)
    ensures n == 4 || n == 1
    ensures isMember <==> n == 4
  {
    if isMember then 4 else 1
  }

  /** Whether another reply may be sent, given the recorded timestamps before pruning. */
  predicate Admits(ts: seq<int>, now: int, isMember: bool)
    ensures !isMember ==> (Admits(ts, now, isMember) <==> Pruned(ts, now) == [])
    ensures Admits(ts, now, isMember) ==> |Pruned(ts, now)| < 4
  {
    |Pruned(ts, now)| < Limit(isMember)
  }

  /** Pruning keeps exactly the timestamps inside the window, never adding one. */
  lemma PrunedExactly(ts: seq<int>, now: int, t: int)
    ensures t in Pruned(ts, now) <==> t in ts && now - t < Window
    ensures |Pruned(ts, now)| <= |ts|
  {
    FilterMembership(ts, t => now - t < Window, t);
  }

  /** Pruning again at the same instant removes nothing more. */
  lemma PrunedIdempotent(ts: seq<int>, now: int)
    ensures Pruned(Pruned(ts, now), now) == Pruned(ts, now)
  {
    FilterIdempotent(ts, InWindow(now));
  }

  /** A send recorded at `now` is kept by the prune of every later check within the window. */
  lemma RecordedSendCounts(ts: seq<int>, sentAt: int, now: int)
    requires sentAt <= now < sentAt + Window
    ensures Pruned(ts + [sentAt], now) == Pruned(ts, now) + [sentAt]
  {
    FilterAppend(ts, [sentAt], InWindow(now));
  }

  /** Once the quota's worth of sends lies inside the window, the next check refuses. */
  lemma QuotaExhausted(ts: seq<int>, now: int, isMember: bool)
    requires |ts| >= Limit(isMember)
    requires forall i :: 0 <= i < |ts| ==> now - ts[i] < Window
    ensures !Admits(ts, now, isMember)
  {
    FilterAllPass(ts, InWindow(now));
  }

  /** With no more than the quota recorded, a check made after one of them has aged past
      the window admits again. */
  lemma AgedSendFreesQuota(ts: seq<int>, now: int, isMember: bool, i: nat)
    requires |ts| <= Limit(isMember)
    requires i < |ts| && now - ts[i] >= Window
    ensures Admits(ts, now, isMember)
  {
    FilterDropsFailing(ts, t => now - t < Window, i);
  }

  /** The entry for `k` and `c` in `m`, or `absent` when there is none. */
  function Lookup<V>(m: map<Key, map<int, V>>, k: Key, c: int, absent: V): V
  {
    if k in m && c in m[k] then m[k][c] else absent
  }

  /** `m` with the entry for `k` and `c` set to `v`, creating the entry for `k` when missing
      (the source's nested dictionaries, whose entries are created on first use). */
  function Put<V>(m: map<Key, map<int, V>>, k: Key, c: int, v: V): (r: map<Key, map<int, V>>)
    ensures k in r && c in r[k] && r[k][c] == v
    ensures r.Keys == m.Keys + {k}
    ensures forall k' :: k' in m && k' != k ==> r[k'] == m[k']
    ensures k in m ==> forall c' :: c' in m[k] && c' != c ==> c' in r[k] && r[k][c'] == m[k][c']
    ensures r[k].Keys == (if k in m then m[k].Keys else {}) + {c}
  {
    m[k := (if k in m then m[k] else map[])[c := v]]
  }

  /** A second write to the same entry overrides the first. */
  lemma PutTwice<V>(m: map<Key, map<int, V>>, k: Key, c: int, a: V, b: V)
    ensures Put(Put(m, k, c, a), k, c, b) == Put(m, k, c, b)
  {
    var base := if k in m then m[k] else map[];
    assert base[c := a][c := b] == base[c := b];
  }

  /** The activity tracker of the whole process. */
  class Tracker {
    /** Timestamps of recent automated replies. */
    var messages: map<Key, map<int, seq<int>>>
    /** Message ids already replied to. */
    var replies: map<Key, map<int, set<int>>>
    /** Message ids already used for an autopost. */
    var autoreplies: map<Key, map<int, set<int>>>

    constructor ()
      ensures messages == map[] && replies == map[] && autoreplies == map[]
    {
      messages := map[];
      replies := map[];
      autoreplies := map[];
    }

    /** Recorded timestamps for (k, c); none when no entry exists yet. */
    function Sent(k: Key, c: int): seq<int>
      reads this
    {
      Lookup(messages, k, c, [])
    }

    /** Ids already replied to in (k, c). */
    function Replied(k: Key, c: int): set<int>
      reads this
    {
      Lookup(replies, k, c, {})
    }

    /** Ids already used for an autopost in (k, c). */
    function Autoposted(k: Key, c: int): set<int>
      reads this
    {
      Lookup(autoreplies, k, c, {})
    }

    predicate HasReplyEntries(k: Key, c: int)
      reads this
    {
      k in messages && c in messages[k] && k in replies && c in replies[k]
    }

    /** Lazily creates both reply entries of (k, c), prunes its timestamps against the
        window and reports whether the tier's quota admits another reply (bot.py:907-927). */
    method Admit(k: Key, c: int, now: int, isMember: bool) returns (ok: bool)
      modifies this
      ensures HasReplyEntries(k, c)
      ensures ok <==> Admits(old(Sent(k, c)), now, isMember)
      ensures messages == Put(old(messages), k, c, Pruned(old(Sent(k, c)), now))
      ensures replies == Put(old(replies), k, c, old(Replied(k, c)))
      ensures autoreplies == old(autoreplies)
      ensures Sent(k, c) == Pruned(old(Sent(k, c)), now) && Replied(k, c) == old(Replied(k, c))
    {
      var recent := Pruned(Sent(k, c), now);
      messages := Put(messages, k, c, recent);
      replies := Put(replies, k, c, Replied(k, c));
      ok := |recent| < Limit(isMember);
    }

    /** After a successful send: appends the check's time and marks the message as
        replied to (bot.py:968-969). */
    method RecordReply(k: Key, c: int, now: int, id: int)
      requires HasReplyEntries(k, c)
      modifies this
      ensures HasReplyEntries(k, c)
      ensures messages == Put(old(messages), k, c, old(Sent(k, c)) + [now])
      ensures replies == Put(old(replies), k, c, old(Replied(k, c)) + {id})
      ensures autoreplies == old(autoreplies)
      ensures Sent(k, c) == old(Sent(k, c)) + [now] && Replied(k, c) == old(Replied(k, c)) + {id}
    {
      messages := messages[k := messages[k][c := messages[k][c] + [now]]];
      replies := replies[k := replies[k][c := replies[k][c] + {id}]];
    }

    /** Lazily creates the autopost entry of (k, c) (bot.py:1067-1070). */
    method OpenAutopost(k: Key, c: int)
      modifies this
      ensures k in autoreplies && c in autoreplies[k]
      ensures autoreplies == Put(old(autoreplies), k, c, old(Autoposted(k, c)))
      ensures messages == old(messages) && replies == old(replies)
      ensures Autoposted(k, c) == old(Autoposted(k, c))
    {
      autoreplies := Put(autoreplies, k, c, Autoposted(k, c));
    }

    /** After a successful autopost: marks the source message as used (bot.py:1103, 1110). */
    method RecordAutopost(k: Key, c: int, id: int)
      requires k in autoreplies && c in autoreplies[k]
      modifies this
      ensures autoreplies == Put(old(autoreplies), k, c, old(Autoposted(k, c)) + {id})
      ensures messages == old(messages) && replies == old(replies)
      ensures Autoposted(k, c) == old(Autoposted(k, c)) + {id}
    {
      autoreplies := autoreplies[k := autoreplies[k][c := autoreplies[k][c] + {id}]];
    }
  }
}

=== FILE: autopost.dfy ===
/** The periodic autopost (autopost_task, bot.py:1039-1117): once per cycle, for every chat
    group of the linked account, the most recent suitable message of the chat is picked and
    answered, and its id is remembered so that it is never used again. */
module Autopost {
  import opened Common
  import opened Directory
  import opened Activity
  import opened Reply

  /** How many of the most recent messages one scan looks at. */
  const HistoryLimit: nat := 100

  /** A message older than the window ends the scan. The bound is strict here, while the reply
      quota keeps a timestamp only while it is strictly younger than the window. */
  predicate Stale(now: int, m: Message)
    ensures Stale(now, m) ==> !(now - m.date < Window)
  {
    now - m.date > Window
  }

  /** A message the autopost may answer: not the account's own, not from a bot, free of links,
      with text, and not used before in this chat. */
  predicate Eligible(me: int, containsLink: string -> bool, used: set<int>, m: Message)
    ensures Eligible(me, containsLink, used, m) ==> m.id !in used && m.text != ""
  {
    && !(m.sender.Some? && m.sender.value.id == me)
    && !(m.sender.Some? && m.sender.value.bot)
    && !containsLink(m.text)
    && m.text != ""
    && m.id !in used
  }

  /** The part of the history a scan receives: at most the 100 most recent messages. */
  function Window100(history: seq<Message>): (r: seq<Message>)
    ensures |r| <= HistoryLimit && |r| <= |history| && r == history[..|r|]
    ensures |r| == HistoryLimit || r == history
  {
    if |history| <= HistoryLimit then history else history[..HistoryLimit]
  }

  /** The scan from position `i` on: stops at the first stale message, otherwise takes the
      first eligible one. */
  function PickFrom(h: seq<Message>, i: nat, now: int, me: int, containsLink: string -> bool, used: set<int>): (r: Option<nat>)
    ensures r.Some? ==> i <= r.value < |h|
    decreases |h| - i
  {
    if i >= |h| then None
    else if Stale(now, h[i]) then None
    else if Eligible(me, containsLink, used, h[i]) then Some(i)
    else PickFrom(h, i + 1, now, me, containsLink, used)
  }

  /** The message a scan of `history`, most recent first, selects. */
  function Select(history: seq<Message>, now: int, me: int, containsLink: string -> bool, used: set<int>): (r: Option<nat>)
    ensures r.Some? ==> r.value < |history| && r.value < HistoryLimit
  {
    PickFrom(Window100(history), 0, now, me, containsLink, used)
  }

  /** The scan from `i` picks the first eligible message at or after `i` provided no stale one
      comes before it, and picks nothing when a stale message or the end comes first. */
  lemma {:induction false} PickFromSpec(h: seq<Message>, i: nat, now: int, me: int, containsLink: string -> bool, used: set<int>)
    ensures var r := PickFrom(h, i, now, me, containsLink, used);
      && (r.Some? ==>
            && i <= r.value < |h|
            && Eligible(me, containsLink, used, h[r.value]) && !Stale(now, h[r.value])
            && forall j :: i <= j < r.value ==> !Stale(now, h[j]) && !Eligible(me, containsLink, used, h[j]))
      && (r.None? ==>
            forall j :: i <= j < |h| && Eligible(me, containsLink, used, h[j]) ==>
              exists l :: i <= l <= j && Stale(now, h[l]))
    decreases |h| - i
  {
    if i < |h| && !Stale(now, h[i]) && !Eligible(me, containsLink, used, h[i]) {
      PickFromSpec(h, i + 1, now, me, containsLink, used);
    }
  }

  /** What a scan selects: a message among the 100 most recent, eligible, not stale, with every
      more recent message neither stale nor eligible; when nothing is selected, every eligible
      message among the 100 lies at or behind a stale one. */
  lemma SelectSpec(history: seq<Message>, now: int, me: int, containsLink: string -> bool, used: set<int>)
    ensures var r := Select(history, now, me, containsLink, used);
      && (r.Some? ==>
            && r.value < HistoryLimit && r.value < |history|
            && Eligible(me, containsLink, used, history[r.value])
            && history[r.value].id !in used
            && !Stale(now, history[r.value])
            && forall j :: 0 <= j < r.value ==> !Stale(now, history[j]) && !Eligible(me, containsLink, used, history[j]))
      && (r.None? ==>
            forall j :: 0 <= j < |history| && j < HistoryLimit && Eligible(me, containsLink, used, history[j]) ==>
              exists l :: 0 <= l <= j && Stale(now, history[l]))
  {
    var h := Window100(history);
    PickFromSpec(h, 0, now, me, containsLink, used);
    var r := Select(history, now, me, containsLink, used);
    if r.None? {
      forall j | 0 <= j < |history| && j < HistoryLimit && Eligible(me, containsLink, used, history[j])
        ensures exists l :: 0 <= l <= j && Stale(now, history[l])
      {
        assert h[j] == history[j];
        var l :| 0 <= l <= j && Stale(now, h[l]);
        assert h[l] == history[l];
      }
    }
  }

  /** Nothing at or behind the first stale message is ever selected. */
  lemma NeverPastStale(history: seq<Message>, now: int, me: int, containsLink: string -> bool, used: set<int>, s: nat)
    requires s < |history| && Stale(now, history[s])
    requires Select(history, now, me, containsLink, used).Some?
    ensures Select(history, now, me, containsLink, used).value < s
  {
    SelectSpec(history, now, me, containsLink, used);
  }

  /** A selected message is never selected again for the same chat once its id is recorded:
      no later scan, whatever history it sees and at whatever time, selects it while the
      chat's record `used'` holds the id. */
  lemma NoRepeatSelection(history: seq<Message>, now: int, me: int, containsLink: string -> bool, used: set<int>,
                          history': seq<Message>, now': int, used': set<int>)
    requires Select(history, now, me, containsLink, used).Some?
    requires history[Select(history, now, me, containsLink, used).value].id in used'
    ensures var r := Select(history', now', me, containsLink, used');
      r.Some? ==> history'[r.value].id != history[Select(history, now, me, containsLink, used).value].id
  {
    SelectSpec(history', now', me, containsLink, used');
  }

  /** The `async for` scan of one chat, message by message. */
  method Scan(history: seq<Message>, now: int, me: int, containsLink: string -> bool, used: set<int>)
    returns (found: Option<nat>)
    ensures found == Select(history, now, me, containsLink, used)
  {
    var h := Window100(history);
    var i := 0;
    while i < |h|
      invariant 0 <= i <= |h|
      invariant PickFrom(h, i, now, me, containsLink, used) == PickFrom(h, 0, now, me, containsLink, used)
    {
      if now - h[i].date > Window {
        return None;
      }
      if h[i].sender.Some? && h[i].sender.value.id == me {
        i := i + 1;
        continue;
      }
      if h[i].sender.Some? && h[i].sender.value.bot {
        i := i + 1;
        continue;
      }
      if containsLink(h[i].text) {
        i := i + 1;
        continue;
      }
      if h[i].text == "" {
        i := i + 1;
        continue;
      }
      if h[i].id in used {
        i := i + 1;
        continue;
      }
      return Some(i);
    }
    return None;
  }

  /** What the clock and the transport deliver while one chat group is handled: the time of the
      scan, the chat's history most recent first (None when reading the history or resolving a
      sender during the scan raised), and the outcomes of the send and of its retry. */
  datatype Round = Round(now: int, history: Option<seq<Message>>, first: SendResult, retry: SendResult)

  /** An autopost that went out: the chat, the message it answers and the persona used. */
  datatype Post = Post(chat: int, replyTo: int, personality: string)

  /** The autopost records and the posts made so far; `aborted` when the scan raised or a retry
      after a flood wait failed, which leaves the rest of the cycle undone. */
  datatype CycleState = CycleState(used: map<Key, map<int, set<int>>>, posts: seq<Post>, aborted: bool)

  /** Handling one chat group: the record is created when missing, a selected message is
      answered, and its id is recorded only when the send, or the retry after a flood wait,
      went through. A failed send moves on to the next group; a scan that raised or a failed
      retry aborts. At most one post is added, in the group's chat. */
  function Step(s: CycleState, k: Key, me: int, containsLink: string -> bool, cg: ChatGroup, rd: Round): (r: CycleState)
    ensures |s.posts| <= |r.posts| <= |s.posts| + 1 && r.posts[..|s.posts|] == s.posts
    ensures |r.posts| > |s.posts| ==> r.posts[|s.posts|].chat == cg.id && !r.aborted
    ensures rd.history.None? ==> r.aborted && r.posts == s.posts
  {
    var before := Lookup(s.used, k, cg.id, {});
    var created := Put(s.used, k, cg.id, before);
    match rd.history
    case None => s.(used := created, aborted := true)
    case Some(h) =>
      match Select(h, rd.now, me, containsLink, before)
      case None => s.(used := created)
      case Some(i) =>
        var id := h[i].id;
        if Delivered(rd.first, rd.retry) then
          CycleState(Put(s.used, k, cg.id, before + {id}), s.posts + [Post(cg.id, id, cg.personality)], false)
        else if rd.first.FloodWait? then s.(used := created, aborted := true)
        else s.(used := created)
  }

  /** The first `n` groups of one cycle, stopping after an abort: at most one post per group
      handled, each in the chat of one of those groups. */
  function Run(a: map<Key, map<int, set<int>>>, k: Key, me: int, containsLink: string -> bool,
               groups: seq<ChatGroup>, env: nat -> Round, n: nat): (r: CycleState)
    requires n <= |groups|
    ensures |r.posts| <= n
    ensures forall p :: p in r.posts ==> exists i :: 0 <= i < n && groups[i].id == p.chat
  {
    if n == 0 then CycleState(a, [], false)
    else
      var s := Run(a, k, me, containsLink, groups, env, n - 1);
      if s.aborted then s
      else
        var r := Step(s, k, me, containsLink, groups[n - 1], env(n - 1));
        assert forall p :: p in r.posts ==> p in s.posts || p.chat == groups[n - 1].id by {
          forall p | p in r.posts ensures p in s.posts || p.chat == groups[n - 1].id {
            var j :| 0 <= j < |r.posts| && r.posts[j] == p;
            if j < |s.posts| {
              assert r.posts[..|s.posts|][j] == p;
            }
          }
        }
        r
  }

  /** Once aborted, the cycle does nothing more. */
  lemma {:induction false} RunAbortedStable(a: map<Key, map<int, set<int>>>, k: Key, me: int, containsLink: string -> bool,
                                            groups: seq<ChatGroup>, env: nat -> Round, i: nat, n: nat)
    requires i <= n <= |groups|
    requires Run(a, k, me, containsLink, groups, env, i).aborted
    ensures Run(a, k, me, containsLink, groups, env, n) == Run(a, k, me, containsLink, groups, env, i)
    decreases n - i
  {
    if i < n {
      RunAbortedStable(a, k, me, containsLink, groups, env, i, n - 1);
    }
  }

  /** The ids recorded by a cycle for chat `c`: those of the posts it made there. */
  function PostedIn(posts: seq<Post>, c: int): set<int>
  {
    set p | p in posts && p.chat == c :: p.replyTo
  }

  /** What a cycle state owes to the records `a` it started from: each chat's record is its
      old record plus the messages answered there, none of which was recorded before, and no
      message is answered twice. */
  ghost predicate Accounted(a: map<Key, map<int, set<int>>>, k: Key, s: CycleState)
  {
    && (forall c :: Lookup(s.used, k, c, {}) == Lookup(a, k, c, {}) + PostedIn(s.posts, c))
    && (forall p :: p in s.posts ==> p.replyTo !in Lookup(a, k, p.chat, {}))
    && (forall i, j :: 0 <= i < j < |s.posts| ==>
          s.posts[i].chat != s.posts[j].chat || s.posts[i].replyTo != s.posts[j].replyTo)
  }

  lemma LookupPut(m: map<Key, map<int, set<int>>>, k: Key, c: int, v: set<int>, c': int)
    ensures Lookup(Put(m, k, c, v), k, c', {}) == if c' == c then v else Lookup(m, k, c', {})
  {
  }

  lemma PostedInSnoc(posts: seq<Post>, p: Post, c: int)
    ensures PostedIn(posts + [p], c) == PostedIn(posts, c) + (if p.chat == c then {p.replyTo} else {})
  {
    assert forall q :: q in posts + [p] <==> q in posts || q == p;
  }

  /** A post for a message not yet recorded in its chat keeps the records accounted for. */
  lemma PostAccounted(a: map<Key, map<int, set<int>>>, k: Key, s: CycleState, p: Post)
    requires Accounted(a, k, s)
    requires p.replyTo !in Lookup(s.used, k, p.chat, {})
    ensures Accounted(a, k, CycleState(Put(s.used, k, p.chat, Lookup(s.used, k, p.chat, {}) + {p.replyTo}), s.posts + [p], false))
  {
    var s' := CycleState(Put(s.used, k, p.chat, Lookup(s.used, k, p.chat, {}) + {p.replyTo}), s.posts + [p], false);
    forall c ensures Lookup(s'.used, k, c, {}) == Lookup(a, k, c, {}) + PostedIn(s'.posts, c) {
      LookupPut(s.used, k, p.chat, Lookup(s.used, k, p.chat, {}) + {p.replyTo}, c);
      PostedInSnoc(s.posts, p, c);
    }
    forall i | 0 <= i < |s.posts| && s.posts[i].chat == p.chat
      ensures s.posts[i].replyTo != p.replyTo
    {
      assert s.posts[i] in s.posts;
    }
  }

  /** Handling one group keeps the records accounted for. */
  lemma StepAccounted(a: map<Key, map<int, set<int>>>, k: Key, me: int, containsLink: string -> bool,
                      s: CycleState, cg: ChatGroup, rd: Round)
    requires Accounted(a, k, s)
    ensures Accounted(a, k, Step(s, k, me, containsLink, cg, rd))
  {
    var before := Lookup(s.used, k, cg.id, {});
    var h := if rd.history.Some? then rd.history.value else [];
    var r := Select(h, rd.now, me, containsLink, before);
    if rd.history.Some? && r.Some? && Delivered(rd.first, rd.retry) {
      SelectSpec(h, rd.now, me, containsLink, before);
      PostAccounted(a, k, s, Post(cg.id, h[r.value].id, cg.personality));
    } else {
      var s' := Step(s, k, me, containsLink, cg, rd);
      assert s'.posts == s.posts;
      forall c ensures Lookup(s'.used, k, c, {}) == Lookup(s.used, k, c, {}) {
        LookupPut(s.used, k, cg.id, before, c);
      }
    }
  }

  /** The records a cycle leaves change only by the sends that went out (see Accounted). */
  lemma {:induction false} RunRecordsOnlyPosts(a: map<Key, map<int, set<int>>>, k: Key, me: int, containsLink: string -> bool,
                                               groups: seq<ChatGroup>, env: nat -> Round, n: nat)
    requires n <= |groups|
    ensures Accounted(a, k, Run(a, k, me, containsLink, groups, env, n))
  {
    if n > 0 {
      RunRecordsOnlyPosts(a, k, me, containsLink, groups, env, n - 1);
      var s := Run(a, k, me, containsLink, groups, env, n - 1);
      if !s.aborted {
        StepAccounted(a, k, me, containsLink, s, groups[n - 1], env(n - 1));
      }
    }
  }

  // ---------------------------------------------------------------------------
  // At most one post per chat and cycle

  /** No two groups of the list name the same chat. */
  predicate DistinctChats(groups: seq<ChatGroup>)
  {
    forall i, j :: 0 <= i < j < |groups| ==> groups[i].id != groups[j].id
  }

  /** No two posts are in the same chat. */
  predicate PostsInDistinctChats(ps: seq<Post>)
  {
    forall i, j :: 0 <= i < j < |ps| ==> ps[i].chat != ps[j].chat
  }

  /** When the account's groups name distinct chats, a cycle posts at most once in each chat. */
  lemma {:induction false} OnePostPerChat(a: map<Key, map<int, set<int>>>, k: Key, me: int, containsLink: string -> bool,
                                          groups: seq<ChatGroup>, env: nat -> Round, n: nat)
    requires n <= |groups| && DistinctChats(groups)
    ensures PostsInDistinctChats(Run(a, k, me, containsLink, groups, env, n).posts)
  {
    if n > 0 {
      OnePostPerChat(a, k, me, containsLink, groups, env, n - 1);
      var s := Run(a, k, me, containsLink, groups, env, n - 1);
      if !s.aborted {
        var c := groups[n - 1].id;
        forall p | p in s.posts ensures p.chat != c {
          var l :| 0 <= l < n - 1 && groups[l].id == p.chat;
        }
        var r := Step(s, k, me, containsLink, groups[n - 1], env(n - 1));
        SnocChatsDistinct(s.posts, r.posts, c);
      }
    }
  }

  /** Extending posts in distinct chats by at most one post in a new chat keeps them distinct. */
  lemma SnocChatsDistinct(ps: seq<Post>, qs: seq<Post>, c: int)
    requires |ps| <= |qs| <= |ps| + 1 && qs[..|ps|] == ps
    requires |qs| > |ps| ==> qs[|ps|].chat == c
    requires PostsInDistinctChats(ps)
    requires forall p :: p in ps ==> p.chat != c
    ensures PostsInDistinctChats(qs)
  {
    forall i, j | 0 <= i < j < |qs| ensures qs[i].chat != qs[j].chat {
      assert qs[..|ps|][i] == qs[i];
      if j == |ps| {
        assert ps[i] in ps;
      } else {
        assert qs[..|ps|][j] == qs[j];
      }
    }
  }

  /** A message that every scan accepts: fresh, textual, without a link and from no one known. */
  function PlainMessage(id: int, chat: int, now: int): Message
  {
    Message(id, chat, now, "hi", None, false, None)
  }

  function NoLinks(text: string): bool
  {
    false
  }

  /** The same round for every group of the cycle. */
  function Every(rd: Round): nat -> Round
  {
    (i: nat) => rd
  }

  /** As written, nothing stops a chat from being listed twice under one account (the chat-group
      form appends without a duplicate check), and a cycle then posts twice in that chat: here
      the two most recent messages of the chat are both answered in one cycle. */
  lemma DuplicateChatPostsTwice(a: map<Key, map<int, set<int>>>, k: Key, cg: ChatGroup, now: int)
    requires Lookup(a, k, cg.id, {}) == {}
    ensures var rd := Round(now, Some([PlainMessage(1, cg.id, now), PlainMessage(2, cg.id, now)]), Sent, Sent);
      Run(a, k, 0, NoLinks, [cg, cg], Every(rd), 2).posts ==
        [Post(cg.id, 1, cg.personality), Post(cg.id, 2, cg.personality)]
  {
    var h := [PlainMessage(1, cg.id, now), PlainMessage(2, cg.id, now)];
    var rd := Round(now, Some(h), Sent, Sent);
    assert Select(h, now, 0, NoLinks, {}) == Some(0);
    assert Every(rd)(0) == rd && Every(rd)(1) == rd;
    var s0 := Run(a, k, 0, NoLinks, [cg, cg], Every(rd), 0);
    assert s0 == CycleState(a, [], false);
    assert {} + {1} == {1};
    var s1 := Run(a, k, 0, NoLinks, [cg, cg], Every(rd), 1);
    assert s1 == Step(s0, k, 0, NoLinks, cg, rd);
    assert s1 == CycleState(Put(a, k, cg.id, {1}), [Post(cg.id, 1, cg.personality)], false);
    assert Lookup(s1.used, k, cg.id, {}) == {1};
    assert PickFrom(h, 1, now, 0, NoLinks, {1}) == Some(1);
    assert Select(h, now, 0, NoLinks, {1}) == Some(1);
  }

  /** The account's groups with only the first group of each chat kept, leaving out chats in
      `seen`. */
  function FirstPerChat(groups: seq<ChatGroup>, seen: set<int>): (r: seq<ChatGroup>)
    ensures |r| <= |groups|
    decreases |groups|
  {
    if groups == [] then []
    else if groups[0].id in seen then FirstPerChat(groups[1..], seen)
    else [groups[0]] + FirstPerChat(groups[1..], seen + {groups[0].id})
  }

  /** The merged list holds only groups of `groups`, none for a chat in `seen`. */
  lemma {:induction false} FirstPerChatFrom(groups: seq<ChatGroup>, seen: set<int>, cg: ChatGroup)
    requires cg in FirstPerChat(groups, seen)
    ensures cg in groups && cg.id !in seen
    decreases |groups|
  {
    if cg != groups[0] || groups[0].id in seen {
      var seen' := if groups[0].id in seen then seen else seen + {groups[0].id};
      FirstPerChatFrom(groups[1..], seen', cg);
    }
  }

  /** The merged list names no chat twice. */
  lemma {:induction false} FirstPerChatDistinct(groups: seq<ChatGroup>, seen: set<int>)
    ensures DistinctChats(FirstPerChat(groups, seen))
    decreases |groups|
  {
    if groups != [] {
      var g0 := groups[0];
      if g0.id in seen {
        FirstPerChatDistinct(groups[1..], seen);
      } else {
        var rest := FirstPerChat(groups[1..], seen + {g0.id});
        FirstPerChatDistinct(groups[1..], seen + {g0.id});
        var r := [g0] + rest;
        forall i, j | 0 <= i < j < |r| ensures r[i].id != r[j].id {
          assert r[j] == rest[j - 1];
          if i == 0 {
            FirstPerChatFrom(groups[1..], seen + {g0.id}, rest[j - 1]);
          } else {
            assert r[i] == rest[i - 1];
          }
        }
      }
    }
  }

  /** Every chat of `groups` outside `seen` keeps a group in the merged list. */
  lemma {:induction false} FirstPerChatCovers(groups: seq<ChatGroup>, seen: set<int>, cg: ChatGroup)
    requires cg in groups && cg.id !in seen
    ensures exists cg' :: cg' in FirstPerChat(groups, seen) && cg'.id == cg.id
    decreases |groups|
  {
    var g0 := groups[0];
    if g0.id !in seen && cg.id == g0.id {
      assert FirstPerChat(groups, seen)[0] == g0;
    } else {
      assert cg in groups[1..];
      var seen' := if g0.id in seen then seen else seen + {g0.id};
      FirstPerChatCovers(groups[1..], seen', cg);
      var cg' :| cg' in FirstPerChat(groups[1..], seen') && cg'.id == cg.id;
      assert cg' in FirstPerChat(groups, seen);
    }
  }

  /** With the groups of each chat merged into the first one, every listed chat is handled and
      a cycle posts at most once per chat. */
  lemma CycleOnePostPerChat(a: map<Key, map<int, set<int>>>, k: Key, me: int, containsLink: string -> bool,
                            groups: seq<ChatGroup>, env: nat -> Round)
    ensures var gs := FirstPerChat(groups, {});
      && (forall cg :: cg in groups ==> exists cg' :: cg' in gs && cg'.id == cg.id)
      && PostsInDistinctChats(Run(a, k, me, containsLink, gs, env, |gs|).posts)
  {
    var gs := FirstPerChat(groups, {});
    FirstPerChatDistinct(groups, {});
    forall cg | cg in groups ensures exists cg' :: cg' in gs && cg'.id == cg.id {
      FirstPerChatCovers(groups, {}, cg);
    }
    OnePostPerChat(a, k, me, containsLink, gs, env, |gs|);
  }

  /** One cycle of autopost_task for the connection `k` whose account's own id is `me`: reads
      the account's chat groups from `g` (none, when the account has no record: the cycle does
      nothing), then handles each group in order, updating the tracker's autopost records. */
  method AutopostCycle(t: Tracker, k: Key, me: int, containsLink: string -> bool, g: ChatGroups, env: nat -> Round)
    returns (posts: seq<Post>, aborted: bool)
    modifies t
    ensures var groups := AccountChatGroups(g, k.owner, k.account);
      if groups.None? then posts == [] && !aborted && t.autoreplies == old(t.autoreplies)
      else Run(old(t.autoreplies), k, me, containsLink, groups.value, env, |groups.value|)
             == CycleState(t.autoreplies, posts, aborted)
    ensures t.messages == old(t.messages) && t.replies == old(t.replies)
  {
    posts, aborted := [], false;
    var account := AccountChatGroups(g, k.owner, k.account);
    if account.None? {
      return;
    }
    var groups := account.value;
    var i := 0;
    while i < |groups|
      invariant 0 <= i <= |groups|
      invariant Run(old(t.autoreplies), k, me, containsLink, groups, env, i) == CycleState(t.autoreplies, posts, false)
      invariant t.messages == old(t.messages) && t.replies == old(t.replies)
    {
      posts, aborted := HandleGroup(t, k, me, containsLink, groups[i], env(i), posts);
      if aborted {
        RunAbortedStable(old(t.autoreplies), k, me, containsLink, groups, env, i + 1, |groups|);
        return;
      }
      i := i + 1;
    }
  }

  /** The body of the loop over chat groups: opens the record, scans, sends, and records the
      message only once the send or its retry went through; a scan that raised ends the cycle. */
  method HandleGroup(t: Tracker, k: Key, me: int, containsLink: string -> bool, cg: ChatGroup, rd: Round, posts: seq<Post>)
    returns (posts': seq<Post>, aborted: bool)
    modifies t
    ensures Step(CycleState(old(t.autoreplies), posts, false), k, me, containsLink, cg, rd)
         == CycleState(t.autoreplies, posts', aborted)
    ensures t.messages == old(t.messages) && t.replies == old(t.replies)
  {
    posts', aborted := posts, false;
    ghost var before := t.Autoposted(k, cg.id);
    t.OpenAutopost(k, cg.id);
    if rd.history.None? {
      aborted := true;
      return;
    }
    var h := rd.history.value;
    var found := Scan(h, rd.now, me, containsLink, t.Autoposted(k, cg.id));
    if found.Some? {
      var id := h[found.value].id;
      if Delivered(rd.first, rd.retry) {
        t.RecordAutopost(k, cg.id, id);
        PutTwice(old(t.autoreplies), k, cg.id, before, before + {id});
        posts' := posts + [Post(cg.id, id, cg.personality)];
      } else if rd.first.FloodWait? {
        aborted := true;
      }
    }
  }
}

=== FILE: chat_input.dfy ===
/** Adding a chat group to a linked account (handle_add_group, bot.py:689-754): the typed
    chat reference is classified as a public handle or a numeric chat id, looked up, checked
    against the tier's quota and appended to the account's chat groups. */
module ChatInput {
  import opened Common
  import opened Directory

  predicate IsDigit(c: char)
  {
    '0' <= c <= '9'
  }

  /** Python's `str.isdigit()` on decimal digits: non-empty and digits only, so never the start
      of a handle or of the '-100' form. */
  predicate AllDigits(s: string): (r: bool)
    ensures r ==> |s| > 0 && s[0] != '@' && s[0] != '-'
  {
    |s| > 0 && forall i :: 0 <= i < |s| ==> IsDigit(s[i])
  }

  function Pow10(n: nat): (r: nat)
    ensures r >= 1
  {
    if n == 0 then 1 else 10 * Pow10(n - 1)
  }

  function DigitValue(c: char): (d: nat)
    requires IsDigit(c)
    ensures d < 10
  {
    c as int - '0' as int
  }

  /** Value of a string of decimal digits, as Python's `int` reads it. */
  function DecimalValue(s: string): nat
    requires forall i :: 0 <= i < |s| ==> IsDigit(s[i])
  {
    if s == [] then 0 else DecimalValue(s[..|s| - 1]) * 10 + DigitValue(s[|s| - 1])
  }

  /** A string of n digits is worth less than 10^n. */
  lemma {:induction false} DecimalBound(s: string)
    requires forall i :: 0 <= i < |s| ==> IsDigit(s[i])
    ensures DecimalValue(s) < Pow10(|s|)
    decreases |s|
  {
    if s != [] {
      var v, p := DecimalValue(s[..|s| - 1]), Pow10(|s| - 1);
      DecimalBound(s[..|s| - 1]);
      assert (v + 1) * 10 <= p * 10;
    }
  }

  /** What the typed reference denotes. */
  datatype Target = Handle(name: string) | ChatId(id: int) | Invalid

  /** Classification of the stripped input (bot.py:699-713): a handle when it starts with '@';
      for all digits, `int('-100' + s)`; for '-100' followed by digits, `int(s)`; otherwise
      invalid. */
  function Classify(s: string): (r: Target)
    ensures r == Handle(s) <==> |s| > 0 && s[0] == '@'
    ensures AllDigits(s) ==> r.ChatId?
    ensures r.ChatId? ==> r.id <= 0
    ensures r == Invalid <==>
      !(|s| > 0 && s[0] == '@') && !AllDigits(s) && !(|s| >= 4 && s[..4] == "-100" && AllDigits(s[4..]))
  {
    if |s| > 0 && s[0] == '@' then Handle(s)
    else if AllDigits(s) then ChatId(-(DecimalValue("100" + s) as int))
    else if |s| >= 4 && s[..4] == "-100" && AllDigits(s[4..]) then ChatId(-(DecimalValue(s[1..]) as int))
    else Invalid
  }

  /** Appending digits multiplies by ten per digit. */
  lemma {:induction false} DecimalAppend(s: string, t: string)
    requires forall i :: 0 <= i < |s| ==> IsDigit(s[i])
    requires forall i :: 0 <= i < |t| ==> IsDigit(t[i])
    ensures DecimalValue(s + t) == DecimalValue(s) * Pow10(|t|) + DecimalValue(t)
    decreases |t|
  {
    if t == [] {
      assert s + t == s;
    } else {
      var t' := t[..|t| - 1];
      var st := s + t;
      assert st[..|st| - 1] == s + t';
      assert st[|st| - 1] == t[|t| - 1];
      DecimalAppend(s, t');
      Regroup(DecimalValue(s + t'), DecimalValue(s), Pow10(|t'|), DecimalValue(t'), DigitValue(t[|t| - 1]),
              DecimalValue(st), Pow10(|t|), DecimalValue(t));
    }
  }

  /** The arithmetic step of DecimalAppend, on plain integers. */
  lemma Regroup(x: int, a: int, p: int, b: int, d: int, y: int, q: int, z: int)
    requires x == a * p + b && y == x * 10 + d && q == 10 * p && z == b * 10 + d
    ensures y == a * q + z
  {
  }

  /** The id a bare digit string denotes: -(100 * 10^|s| + s). */
  lemma DigitIdValue(s: string)
    requires AllDigits(s)
    ensures Classify(s) == ChatId(-(100 * Pow10(|s|) + DecimalValue(s)))
  {
    var one, ten, hundred := "1", "10", "100";
    assert hundred[..2] == ten && ten[..1] == one && one[..0] == [];
    assert DecimalValue(one) == 1;
    assert DecimalValue(ten) == 10;
    assert DecimalValue(hundred) == 100;
    DecimalAppend(hundred, s);
    var p := hundred + s;
    assert AllDigits(p) by {
      assert forall i :: 0 <= i < |p| ==> IsDigit(p[i]) by {
        forall i | 0 <= i < |p| ensures IsDigit(p[i]) {
          if i >= 3 { assert p[i] == s[i - 3]; }
        }
      }
    }
    assert s[0] != '@';
  }

  /** Typing the digits alone or with the '-100' prefix denotes the same chat. */
  lemma PrefixedFormAgrees(s: string)
    requires AllDigits(s)
    ensures Classify("-100" + s) == Classify(s)
  {
    var p := "-100" + s;
    assert p[0] == '-' && p[..4] == "-100" && p[4..] == s && p[1..] == "100" + s;
    assert !AllDigits(p);
  }

  /** Digit strings of the same length with the same value are equal. */
  lemma {:induction false} DecimalInjective(s: string, t: string)
    requires forall i :: 0 <= i < |s| ==> IsDigit(s[i])
    requires forall i :: 0 <= i < |t| ==> IsDigit(t[i])
    requires |s| == |t| && DecimalValue(s) == DecimalValue(t)
    ensures s == t
    decreases |s|
  {
    if s != [] {
      var s', t' := s[..|s| - 1], t[..|t| - 1];
      var a, b := DigitValue(s[|s| - 1]), DigitValue(t[|t| - 1]);
      assert DecimalValue(s') * 10 + a == DecimalValue(t') * 10 + b;
      assert a == b && DecimalValue(s') == DecimalValue(t') by {
        assert (DecimalValue(s') - DecimalValue(t')) * 10 == b - a;
      }
      DecimalInjective(s', t');
      assert s == s' + [s[|s| - 1]] && t == t' + [t[|t| - 1]];
    }
  }

  /** Distinct digit strings denote distinct chats: the leading "100" fixes the length. */
  lemma DigitIdsInjective(s: string, t: string)
    requires AllDigits(s) && AllDigits(t)
    requires Classify(s) == Classify(t)
    ensures s == t
  {
    DigitIdValue(s);
    DigitIdValue(t);
    var vs, vt := DecimalValue(s), DecimalValue(t);
    DecimalBound(s);
    DecimalBound(t);
    assert 100 * Pow10(|s|) + vs == 100 * Pow10(|t|) + vt;
    if |s| < |t| {
      PowMonotone(|s| + 1, |t|);
      assert false;
    } else if |t| < |s| {
      PowMonotone(|t| + 1, |s|);
      assert false;
    }
    DecimalInjective(s, t);
  }

  lemma {:induction false} PowMonotone(m: nat, n: nat)
    requires m <= n
    ensures Pow10(m) <= Pow10(n)
    decreases n - m
  {
    if m < n {
      PowMonotone(m, n - 1);
    }
  }

  /** A resolved chat: its id and its title. */
  datatype Entity = Entity(id: int, title: string)

  datatype AddError = NoClient | InvalidInput | LookupFailed | QuotaReached

  datatype AddOutcome = Added(groups: ChatGroups, chat: ChatGroup) | Refused(reason: AddError)

  /** Chat groups allowed per linked account: 8 for members, 1 otherwise (bot.py:727). */
  function MaxGroups(isMember: bool): (n: nat)
    ensures n == 8 || n == 1
    ensures isMember <==> n == 8
  {
    if isMember then 8 else 1
  }

  /** The chat the target names, through the transport's entity lookup: a handle takes the
      entity's id, a numeric id is kept as typed. */
  function Resolve(t: Target, byHandle: string -> Option<Entity>, byId: int -> Option<Entity>): (r: Option<Entity>)
    ensures t.Invalid? ==> r.None?
    ensures t.ChatId? ==> r.Some? == byId(t.id).Some? && (r.Some? ==> r.value.id == t.id)
  {
    match t
    case Invalid => None
    case Handle(h) => byHandle(h)
    case ChatId(id) =>
      match byId(id)
      case None => None
      case Some(e) => Some(Entity(id, e.title))
  }

  /** `chat_groups` after `handle_add_group` for (owner, tid): requires the account's live
      client; creates the owner's and the account's records when missing; refuses at the quota;
      otherwise appends one group with an empty persona. A refusal saves nothing. */
  function AddGroup(g: ChatGroups, owner: int, tid: int, raw: string, hasClient: bool, isMember: bool,
                    byHandle: string -> Option<Entity>, byId: int -> Option<Entity>): (r: AddOutcome)
    ensures !hasClient ==> r == Refused(NoClient)
    ensures r.Added? ==> r.groups.Keys == g.Keys + {owner} && forall o :: o in g && o != owner ==> r.groups[o] == g[o]
  {
    var target := Classify(Strip(raw));
    if !hasClient then Refused(NoClient)
    else if target.Invalid? then Refused(InvalidInput)
    else match Resolve(target, byHandle, byId)
      case None => Refused(LookupFailed)
      case Some(e) => AddResolved(g, owner, tid, e, isMember)
  }

  /** The part of `handle_add_group` after the chat resolved to `e`: the quota check and the
      append, creating the owner's and the account's records when missing. */
  function AddResolved(g: ChatGroups, owner: int, tid: int, e: Entity, isMember: bool): (r: AddOutcome)
    ensures r.Added? ==> r.groups.Keys == g.Keys + {owner} && forall o :: o in g && o != owner ==> r.groups[o] == g[o]
    ensures r.Refused? ==> r.reason == QuotaReached
  {
    var accs := OwnerAccounts(g, owner);
    var at := FirstWhere(accs, IsAccount(tid));
    var accs1 := if at.Some? then accs else accs + [AccountGroups(tid, [])];
    var i := if at.Some? then at.value else |accs|;
    if |accs1[i].groups| >= MaxGroups(isMember) then Refused(QuotaReached)
    else
      var cg := ChatGroup(e.id, e.title, "");
      Added(g[owner := accs1[i := accs1[i].(groups := accs1[i].groups + [cg])]], cg)
  }

  /** Adding succeeds exactly when the client exists, the input is valid and resolves, and the
      account holds fewer groups than the quota; it then appends exactly one group, with an
      empty persona, at the end of that account's list, adds the account's record at the end
      of the owner's list when it was missing, and leaves the owner's other records alone. */
  lemma AddGroupSpec(g: ChatGroups, owner: int, tid: int, raw: string, hasClient: bool, isMember: bool,
                     byHandle: string -> Option<Entity>, byId: int -> Option<Entity>)
    ensures var before := AccountChatGroups(g, owner, tid);
      var count := if before.Some? then |before.value| else 0;
      var out := AddGroup(g, owner, tid, raw, hasClient, isMember, byHandle, byId);
      && (out.Added? <==>
            hasClient && Resolve(Classify(Strip(raw)), byHandle, byId).Some? && count < MaxGroups(isMember))
      && (out.Refused? && out.reason == QuotaReached ==> count >= MaxGroups(isMember))
      && (out.Added? ==>
            && out.chat.personality == ""
            && out.chat.id == Resolve(Classify(Strip(raw)), byHandle, byId).value.id
            && AccountChatGroups(out.groups, owner, tid) ==
                 Some((if before.Some? then before.value else []) + [out.chat])
            && var accs, accs' := OwnerAccounts(g, owner), out.groups[owner];
               && |accs'| == |accs| + (if before.Some? then 0 else 1)
               && (before.None? ==> accs'[|accs|] == AccountGroups(tid, [out.chat]))
               && forall j :: 0 <= j < |accs| && FirstWhere(accs, IsAccount(tid)) != Some(j) ==> accs'[j] == accs[j])
  {
    var target := Classify(Strip(raw));
    if hasClient && Resolve(target, byHandle, byId).Some? {
      var e := Resolve(target, byHandle, byId).value;
      assert AddGroup(g, owner, tid, raw, hasClient, isMember, byHandle, byId) == AddResolved(g, owner, tid, e, isMember);
      AddResolvedSpec(g, owner, tid, e, isMember);
    }
  }

  /** Once the chat resolved to `e`: the group is added exactly when the account holds fewer
      groups than the quota, as a group for `e` with an empty persona at the end of the
      account's list, with the account's record added at the end when missing and the
      owner's other records unchanged. */
  lemma AddResolvedSpec(g: ChatGroups, owner: int, tid: int, e: Entity, isMember: bool)
    ensures var before := AccountChatGroups(g, owner, tid);
      var count := if before.Some? then |before.value| else 0;
      var out := AddResolved(g, owner, tid, e, isMember);
      && (out.Added? <==> count < MaxGroups(isMember))
      && (out.Added? ==>
            && out.chat == ChatGroup(e.id, e.title, "")
            && AccountChatGroups(out.groups, owner, tid) ==
                 Some((if before.Some? then before.value else []) + [out.chat])
            && var accs, accs' := OwnerAccounts(g, owner), out.groups[owner];
               && |accs'| == |accs| + (if before.Some? then 0 else 1)
               && (before.None? ==> accs'[|accs|] == AccountGroups(tid, [out.chat]))
               && forall j :: 0 <= j < |accs| && FirstWhere(accs, IsAccount(tid)) != Some(j) ==> accs'[j] == accs[j])
  {
    var accs := OwnerAccounts(g, owner);
    var at := FirstWhere(accs, IsAccount(tid));
    var accs1 := if at.Some? then accs else accs + [AccountGroups(tid, [])];
    var i := if at.Some? then at.value else |accs|;
    var out := AddResolved(g, owner, tid, e, isMember);
    if out.Added? {
      var accs2 := accs1[i := accs1[i].(groups := accs1[i].groups + [out.chat])];
      assert out.groups[owner] == accs2;
      AppendToRecord(accs, tid, out.chat);
    }
  }

  /** The owner's records after a group is appended to the first record `tid`, which is added
      at the end when missing: that record is still the first `tid`, holds the old groups and
      the new one, and every other record is unchanged. */
  lemma AppendToRecord(accs: seq<AccountGroups>, tid: int, cg: ChatGroup)
    ensures var at := FirstWhere(accs, IsAccount(tid));
      var accs1 := if at.Some? then accs else accs + [AccountGroups(tid, [])];
      var i := if at.Some? then at.value else |accs|;
      var accs2 := accs1[i := accs1[i].(groups := accs1[i].groups + [cg])];
      && |accs2| == |accs| + (if at.Some? then 0 else 1)
      && FirstWhere(accs2, IsAccount(tid)) == Some(i)
      && accs2[i] == AccountGroups(tid, (if at.Some? then accs[i].groups else []) + [cg])
      && forall j :: 0 <= j < |accs| && j != i ==> accs2[j] == accs[j]
  {
    var at := FirstWhere(accs, IsAccount(tid));
    var accs1 := if at.Some? then accs else accs + [AccountGroups(tid, [])];
    var i := if at.Some? then at.value else |accs|;
    var accs2 := accs1[i := accs1[i].(groups := accs1[i].groups + [cg])];
    assert forall j :: 0 <= j < |accs| ==> accs1[j] == accs[j];
    assert forall j :: 0 <= j < |accs1| && j != i ==> accs2[j] == accs1[j];
    FirstWhereAt(accs2, IsAccount(tid), i);
  }

  /** Adding never takes an account past its quota. */
  lemma AddGroupKeepsQuota(g: ChatGroups, owner: int, tid: int, raw: string, hasClient: bool, isMember: bool,
                           byHandle: string -> Option<Entity>, byId: int -> Option<Entity>)
    requires AddGroup(g, owner, tid, raw, hasClient, isMember, byHandle, byId).Added?
    ensures var after := AccountChatGroups(AddGroup(g, owner, tid, raw, hasClient, isMember, byHandle, byId).groups, owner, tid);
      after.Some? && |after.value| <= MaxGroups(isMember)
  {
    AddGroupSpec(g, owner, tid, raw, hasClient, isMember, byHandle, byId);
  }
}

=== FILE: common.dfy ===
/** Shared vocabulary: optional values, the (owner, account) key under which every
    live connection and every activity record is filed, and order-preserving filtering,
    which the bot uses for pruning timestamps, unlinking accounts and deleting chat groups. */
module Common {

  datatype Option<+T> = None | Some(value: T)

  /** Key of a live connection: the owning bot user and the linked account's canonical id. */
  datatype Key = Key(owner: int, account: int)

  /** Length of the sliding activity window, in seconds (7 hours). */
  const Window: int := 25200

  /** Python's list comprehension `[x for x in s if keep(x)]`. */
  function Filter<T>(s: seq<T>, keep: T -> bool): (r: seq<T>)
    ensures |r| <= |s|
    decreases |s|
  {
    if s == [] then []
    else if keep(s[|s| - 1]) then Filter(s[..|s| - 1], keep) + [s[|s| - 1]]
    else Filter(s[..|s| - 1], keep)
  }

  /** An element survives exactly when it was there and passes the test. */
  lemma {:induction false} FilterMembership<T>(s: seq<T>, keep: T -> bool, x: T)
    ensures x in Filter(s, keep) <==> x in s && keep(x)
    decreases |s|
  {
    if s != [] {
      FilterMembership(s[..|s| - 1], keep, x);
      assert s == s[..|s| - 1] + [s[|s| - 1]];
    }
  }

  /** Every element of the result passes the test. */
  lemma FilterAllKeep<T>(s: seq<T>, keep: T -> bool)
    ensures forall i :: 0 <= i < |Filter(s, keep)| ==> keep(Filter(s, keep)[i])
  {
    forall i | 0 <= i < |Filter(s, keep)| ensures keep(Filter(s, keep)[i]) {
      FilterMembership(s, keep, Filter(s, keep)[i]);
    }
  }

  /** Filtering distributes over concatenation: relative order is kept. */
  lemma {:induction false} FilterAppend<T>(s: seq<T>, t: seq<T>, keep: T -> bool)
    ensures Filter(s + t, keep) == Filter(s, keep) + Filter(t, keep)
    decreases |t|
  {
    if t == [] {
      assert s + t == s;
    } else {
      var t' := t[..|t| - 1];
      assert (s + t)[..|s + t| - 1] == s + t';
      assert (s + t)[|s + t| - 1] == t[|t| - 1];
      FilterAppend(s, t', keep);
    }
  }

  /** When every element passes, nothing is removed. */
  lemma {:induction false} FilterAllPass<T>(s: seq<T>, keep: T -> bool)
    requires forall i :: 0 <= i < |s| ==> keep(s[i])
    ensures Filter(s, keep) == s
    decreases |s|
  {
    if s != [] {
      FilterAllPass(s[..|s| - 1], keep);
      assert s[..|s| - 1] + [s[|s| - 1]] == s;
    }
  }

  /** Filtering twice with the same test is filtering once. */
  lemma FilterIdempotent<T>(s: seq<T>, keep: T -> bool)
    ensures Filter(Filter(s, keep), keep) == Filter(s, keep)
  {
    FilterAllKeep(s, keep);
    FilterAllPass(Filter(s, keep), keep);
  }

  /** An element that fails the test makes the result strictly shorter. */
  lemma {:induction false} FilterDropsFailing<T>(s: seq<T>, keep: T -> bool, i: nat)
    requires i < |s| && !keep(s[i])
    ensures |Filter(s, keep)| < |s|
    decreases |s|
  {
    if i < |s| - 1 {
      FilterDropsFailing(s[..|s| - 1], keep, i);
    }
  }

  /** Index of the first element satisfying `p`, as Python's `next((... for x in s if p(x)), None)`. */
  function FirstWhere<T>(s: seq<T>, p: T -> bool): (r: Option<nat>)
    ensures r.Some? ==> r.value < |s| && p(s[r.value])
    ensures r.Some? ==> forall j :: 0 <= j < r.value ==> !p(s[j])
    ensures r.None? ==> forall j :: 0 <= j < |s| ==> !p(s[j])
    decreases |s|
  {
    if s == [] then None
    else if p(s[0]) then Some(0)
    else match FirstWhere(s[1..], p)
      case None => None
      case Some(i) => Some(i + 1)
  }

  /** The three conditions of FirstWhere's contract determine its result. */
  lemma FirstWhereAt<T>(s: seq<T>, p: T -> bool, i: nat)
    requires i < |s| && p(s[i])
    requires forall j :: 0 <= j < i ==> !p(s[j])
    ensures FirstWhere(s, p) == Some(i)
  {
  }
}

=== FILE: directory.dfy ===
/** The two directories the bot keeps on disk, as snapshots: `user_data` (owner -> linked
    accounts with credentials) and `chat_groups` (owner -> account -> assigned chats with
    a persona text), and the edits the bot makes to them. Each edit takes the snapshot it
    loaded and yields the snapshot it saves. */
module Directory {
  import opened Common

  /** One linked account record of `user_data`. */
  datatype LinkedAccount = LinkedAccount(
    telegramId: int,
    session: string,
    firstName: string,
    lastName: string,
    username: string,
    phone: Option<string>)

  /** One owner of `user_data`; the snapshot keeps the dictionary's insertion order. */
  datatype OwnerEntry = OwnerEntry(owner: int, accounts: seq<LinkedAccount>)

  type UserData = seq<OwnerEntry>

  /** One chat assigned to a linked account. */
  datatype ChatGroup = ChatGroup(id: int, name: string, personality: string)

  /** One account record of `chat_groups`. */
  datatype AccountGroups = AccountGroups(telegramId: int, groups: seq<ChatGroup>)

  type ChatGroups = map<int, seq<AccountGroups>>

  /** Longest persona text kept (bot.py:459, 464). */
  const MaxPersonality: nat := 2000

  function IsLinked(tid: int): LinkedAccount -> bool
  {
    (a: LinkedAccount) => a.telegramId == tid
  }

  function IsAccount(tid: int): AccountGroups -> bool
  {
    (a: AccountGroups) => a.telegramId == tid
  }

  function IsGroup(gid: int): ChatGroup -> bool
  {
    (g: ChatGroup) => g.id == gid
  }

  function NotGroup(gid: int): ChatGroup -> bool
  {
    (g: ChatGroup) => g.id != gid
  }

  function NotLinked(tid: int): LinkedAccount -> bool
  {
    (a: LinkedAccount) => a.telegramId != tid
  }

  function NotAccount(tid: int): AccountGroups -> bool
  {
    (a: AccountGroups) => a.telegramId != tid
  }

  /** The owner's account records in `chat_groups`, empty when the owner has none. */
  function OwnerAccounts(g: ChatGroups, owner: int): seq<AccountGroups>
  {
    if owner in g then g[owner] else []
  }

  /** The chat groups assigned to (owner, tid): those of the first matching account record. */
  function AccountChatGroups(g: ChatGroups, owner: int, tid: int): (r: Option<seq<ChatGroup>>)
    ensures r.Some? <==> exists a :: a in OwnerAccounts(g, owner) && a.telegramId == tid
  {
    var accs := OwnerAccounts(g, owner);
    match FirstWhere(accs, IsAccount(tid))
    case None => None
    case Some(i) => Some(accs[i].groups)
  }

  /** Ids of the chats assigned to (owner, tid), in directory order (bot.py:1136-1141). */
  function AssignedChats(g: ChatGroups, owner: int, tid: int): (r: seq<int>)
    ensures forall c :: c in r <==>
      AccountChatGroups(g, owner, tid).Some? && exists cg :: cg in AccountChatGroups(g, owner, tid).value && cg.id == c
  {
    match AccountChatGroups(g, owner, tid)
    case None => []
    case Some(groups) =>
      var r := seq(|groups|, i requires 0 <= i < |groups| => groups[i].id);
      assert forall c :: c in r <==> exists cg :: cg in groups && cg.id == c by {
        forall c ensures c in r ==> exists cg :: cg in groups && cg.id == c {
          if c in r {
            var i :| 0 <= i < |r| && r[i] == c;
            assert groups[i] in groups;
          }
        }
        forall c ensures (exists cg :: cg in groups && cg.id == c) ==> c in r {
          if cg :| cg in groups && cg.id == c {
            var i :| 0 <= i < |groups| && groups[i] == cg;
            assert r[i] == c;
          }
        }
      }
      r
  }

  // ---------------------------------------------------------------------------
  // unlink_account (bot.py:367-391), directory part

  /** `user_data` with every account `tid` of `owner` removed. */
  function UnlinkUsers(u: UserData, owner: int, tid: int): (r: UserData)
    ensures |r| == |u|
  {
    seq(|u|, i requires 0 <= i < |u| =>
      if u[i].owner == owner then u[i].(accounts := Filter(u[i].accounts, NotLinked(tid))) else u[i])
  }

  /** `chat_groups` with every account record `tid` of `owner` removed. */
  function UnlinkGroups(g: ChatGroups, owner: int, tid: int): (r: ChatGroups)
    ensures r.Keys == g.Keys
  {
    if owner in g then g[owner := Filter(g[owner], NotAccount(tid))] else g
  }

  /** Unlinking removes exactly the records of `tid` under `owner` and keeps everything else. */
  lemma UnlinkRemovesExactly(u: UserData, g: ChatGroups, owner: int, tid: int)
    ensures forall i :: 0 <= i < |u| ==> UnlinkUsers(u, owner, tid)[i].owner == u[i].owner
    ensures forall i, a :: 0 <= i < |u| ==>
      (a in UnlinkUsers(u, owner, tid)[i].accounts <==>
       a in u[i].accounts && (u[i].owner != owner || a.telegramId != tid))
    ensures owner in g ==> forall a ::
      a in UnlinkGroups(g, owner, tid)[owner] <==> a in g[owner] && a.telegramId != tid
    ensures forall o :: o in g && o != owner ==> UnlinkGroups(g, owner, tid)[o] == g[o]
  {
    forall i, a | 0 <= i < |u|
      ensures a in UnlinkUsers(u, owner, tid)[i].accounts <==>
              a in u[i].accounts && (u[i].owner != owner || a.telegramId != tid)
    {
      FilterMembership(u[i].accounts, NotLinked(tid), a);
    }
    if owner in g {
      forall a ensures a in UnlinkGroups(g, owner, tid)[owner] <==> a in g[owner] && a.telegramId != tid {
        FilterMembership(g[owner], NotAccount(tid), a);
      }
    }
  }

  /** Accounts other than `tid` keep their relative order: unlinking splits over concatenation,
      and a list that never held `tid` is left as it was. */
  lemma UnlinkKeepsOrder(s: seq<LinkedAccount>, t: seq<LinkedAccount>, tid: int)
    ensures Filter(s + t, NotLinked(tid)) ==
            Filter(s, NotLinked(tid)) + Filter(t, NotLinked(tid))
    ensures (forall i :: 0 <= i < |s| ==> s[i].telegramId != tid) ==> Filter(s, NotLinked(tid)) == s
  {
    FilterAppend(s, t, NotLinked(tid));
    if forall i :: 0 <= i < |s| ==> s[i].telegramId != tid {
      FilterAllPass(s, NotLinked(tid));
    }
  }

  /** A second unlink of the same account changes neither directory. */
  lemma UnlinkIdempotent(u: UserData, g: ChatGroups, owner: int, tid: int)
    ensures UnlinkUsers(UnlinkUsers(u, owner, tid), owner, tid) == UnlinkUsers(u, owner, tid)
    ensures UnlinkGroups(UnlinkGroups(g, owner, tid), owner, tid) == UnlinkGroups(g, owner, tid)
  {
    var u1 := UnlinkUsers(u, owner, tid);
    forall i | 0 <= i < |u|
      ensures UnlinkUsers(u1, owner, tid)[i] == u1[i]
    {
      if u[i].owner == owner {
        FilterIdempotent(u[i].accounts, NotLinked(tid));
      }
    }
    if owner in g {
      FilterIdempotent(g[owner], NotAccount(tid));
    }
  }

  // ---------------------------------------------------------------------------
  // save_user_data_info (bot.py:578-612)

  /** `accs` with its first account of `info`'s id replaced by `info`, or with `info` appended
      when there is none: `info` is present afterwards, the record replaced is the first one with
      `info`'s id and no other changes, and the list grows only when no record had that id. */
  function Upserted(accs: seq<LinkedAccount>, info: LinkedAccount): (r: seq<LinkedAccount>)
    ensures info in r
    ensures (exists j :: 0 <= j < |accs| && accs[j].telegramId == info.telegramId) ==> |r| == |accs|
    ensures (forall j :: 0 <= j < |accs| ==> accs[j].telegramId != info.telegramId) ==> r == accs + [info]
    ensures forall j :: 0 <= j < |accs| && accs[j].telegramId != info.telegramId ==> r[j] == accs[j]
    ensures forall j, l :: 0 <= j < l < |accs| && r[j] != accs[j] ==> r[l] == accs[l]
    ensures forall j ::
      (0 <= j < |accs| && accs[j].telegramId == info.telegramId && forall l :: 0 <= l < j ==> accs[l].telegramId != info.telegramId)
      ==> r[j] == info
  {
    match FirstWhere(accs, IsLinked(info.telegramId))
    case Some(i) =>
      assert accs[i := info][i] == info;
      accs[i := info]
    case None => accs + [info]
  }

  /** The `enumerate` loop of `update_linked_accounts` and the append after it (bot.py:594-603). */
  method UpsertAccount(accs: seq<LinkedAccount>, info: LinkedAccount) returns (r: seq<LinkedAccount>)
    ensures r == Upserted(accs, info)
  {
    var i := 0;
    while i < |accs|
      invariant 0 <= i <= |accs|
      invariant forall j :: 0 <= j < i ==> !IsLinked(info.telegramId)(accs[j])
    {
      if accs[i].telegramId == info.telegramId {
        r := accs[i := info];
        assert r[i] == info;
        return;
      }
      i := i + 1;
    }
    r := accs + [info];
  }

  /** Gives every account record of the owner the new id, whatever id it had (bot.py:608-611). */
  method RetagAccounts(accs: seq<AccountGroups>, tid: int) returns (r: seq<AccountGroups>)
    ensures |r| == |accs|
    ensures forall i :: 0 <= i < |r| ==> r[i].telegramId == tid && r[i].groups == accs[i].groups
  {
    r := accs;
    for i := 0 to |r|
      invariant |r| == |accs|
      invariant forall j :: 0 <= j < i ==> r[j].telegramId == tid && r[j].groups == accs[j].groups
      invariant forall j :: i <= j < |r| ==> r[j] == accs[j]
    {
      if r[i].telegramId != tid {
        r := r[i := r[i].(telegramId := tid)];
      }
    }
  }

  /** Index of the owner's entry in `user_data`. */
  function OwnerIndex(u: UserData, owner: int): (r: Option<nat>)
    ensures r.Some? ==> r.value < |u| && u[r.value].owner == owner
    ensures r.None? ==> forall i :: 0 <= i < |u| ==> u[i].owner != owner
  {
    FirstWhere(u, (e: OwnerEntry) => e.owner == owner)
  }

  /** Stores a freshly authorised account: creates the owner's entry, at the end, if needed,
      upserts the account into the owner's list, leaves every other entry as it was, then
      rewrites the id of every chat-group record of the owner (bot.py:590-612). */
  method SaveLinkedAccount(u: UserData, g: ChatGroups, owner: int, info: LinkedAccount)
    returns (u': UserData, g': ChatGroups)
    ensures var at := OwnerIndex(u, owner);
      var i := if at.Some? then at.value else |u|;
      var before := if at.Some? then u[i].accounts else [];
      && |u'| == (if at.Some? then |u| else |u| + 1)
      && OwnerIndex(u', owner) == Some(i)
      && u'[i] == OwnerEntry(owner, Upserted(before, info))
      && forall j :: 0 <= j < |u| && j != i ==> u'[j] == u[j]
    ensures g'.Keys == g.Keys
    ensures forall o :: o in g && o != owner ==> g'[o] == g[o]
    ensures owner in g ==> |g'[owner]| == |g[owner]|
    ensures owner in g ==>
      forall j :: 0 <= j < |g'[owner]| ==> g'[owner][j] == g[owner][j].(telegramId := info.telegramId)
  {
    var idx := OwnerIndex(u, owner);
    var base := u;
    var at: nat;
    if idx.None? {
      base := u + [OwnerEntry(owner, [])];
      at := |u|;
      assert OwnerIndex(base, owner) == Some(at) by {
        assert forall i :: 0 <= i < |u| ==> base[i] == u[i];
        FirstWhereAt(base, (e: OwnerEntry) => e.owner == owner, at);
      }
    } else {
      at := idx.value;
    }
    var accs := UpsertAccount(base[at].accounts, info);
    u' := base[at := base[at].(accounts := accs)];
    assert OwnerIndex(u', owner) == Some(at) by {
      assert forall i :: 0 <= i < at ==> u'[i].owner == base[i].owner;
      FirstWhereAt(u', (e: OwnerEntry) => e.owner == owner, at);
    }
    g' := g;
    if owner in g {
      var accs' := RetagAccounts(g[owner], info.telegramId);
      g' := g[owner := accs'];
    }
  }

  // ---------------------------------------------------------------------------
  // delete_chat_group (bot.py:672-686)

  /** Removes every chat group `gid` from the first account record `tid` of the owner; reports
      whether such an account record was found, and changes nothing when it was not. */
  function DeleteChatGroup(g: ChatGroups, owner: int, tid: int, gid: int): (r: (bool, ChatGroups))
    ensures r.0 <==> AccountChatGroups(g, owner, tid).Some?
    ensures !r.0 ==> r.1 == g
  {
    var accs := OwnerAccounts(g, owner);
    match FirstWhere(accs, IsAccount(tid))
    case None => (false, g)
    case Some(i) =>
      (true, g[owner := accs[i := accs[i].(groups := Filter(accs[i].groups, NotGroup(gid)))]])
  }

  /** A successful delete leaves no group `gid` on the first record `tid` of the owner and keeps
      that record's other groups in their order; the owner's other records and the other owners
      are unchanged. */
  lemma DeleteChatGroupSpec(g: ChatGroups, owner: int, tid: int, gid: int)
    requires DeleteChatGroup(g, owner, tid, gid).0
    ensures owner in g && FirstWhere(g[owner], IsAccount(tid)).Some?
    ensures var g', accs := DeleteChatGroup(g, owner, tid, gid).1, g[owner];
      var i := FirstWhere(accs, IsAccount(tid)).value;
      && g'.Keys == g.Keys
      && (forall o :: o in g && o != owner ==> g'[o] == g[o])
      && |g'[owner]| == |accs|
      && (forall j :: 0 <= j < |accs| && j != i ==> g'[owner][j] == accs[j])
      && g'[owner][i] == AccountGroups(tid, Filter(accs[i].groups, NotGroup(gid)))
      && AccountChatGroups(g', owner, tid) == Some(g'[owner][i].groups)
      && (forall cg :: cg in g'[owner][i].groups <==> cg in accs[i].groups && cg.id != gid)
  {
    var accs := OwnerAccounts(g, owner);
    var i := FirstWhere(accs, IsAccount(tid)).value;
    var groups := Filter(accs[i].groups, NotGroup(gid));
    var accs' := accs[i := accs[i].(groups := groups)];
    assert FirstWhere(accs', IsAccount(tid)) == Some(i) by {
      assert forall j :: 0 <= j < i ==> accs'[j] == accs[j];
      FirstWhereAt(accs', IsAccount(tid), i);
    }
    forall cg ensures cg in groups <==> cg in accs[i].groups && cg.id != gid {
      FilterMembership(accs[i].groups, NotGroup(gid), cg);
    }
  }

  // ---------------------------------------------------------------------------
  // persona text (bot.py:459, 464, 757-798)

  /** Python's `str.isspace` for one character: blank, tab and line ends are whitespace, and no
      visible ASCII character is. */
  predicate IsSpace(c: char): (r: bool)
    ensures c == ' ' || c == '\t' || c == '\n' || c == '\r' ==> r
    ensures ' ' < c <= '~' ==> !r
  {
    || c == ' ' || '\t' <= c <= '\r' || '\U{1C}' <= c <= '\U{1F}'
    || c == '\U{85}' || c == '\U{A0}' || c == '\U{1680}' || '\U{2000}' <= c <= '\U{200A}'
    || c == '\U{2028}' || c == '\U{2029}' || c == '\U{202F}' || c == '\U{205F}' || c == '\U{3000}'
  }

  /** `s` without its leading whitespace. */
  function TrimLeft(s: string): (r: string)
    ensures |r| <= |s| && r == s[|s| - |r|..]
    ensures forall k :: 0 <= k < |s| - |r| ==> IsSpace(s[k])
    ensures r == [] || !IsSpace(r[0])
  {
    if s != [] && IsSpace(s[0]) then TrimLeft(s[1..]) else s
  }

  /** `s` without its trailing whitespace. */
  function TrimRight(s: string): (r: string)
    ensures |r| <= |s| && r == s[..|r|]
    ensures forall k :: |r| <= k < |s| ==> IsSpace(s[k])
    ensures r == [] || !IsSpace(r[|r| - 1])
  {
    if s != [] && IsSpace(s[|s| - 1]) then TrimRight(s[..|s| - 1]) else s
  }

  /** Python's `str.strip()`: the middle of `s` between a run of leading and a run of trailing
      whitespace, neither starting nor ending with whitespace. */
  function Strip(s: string): (r: string)
    ensures |r| <= |s|
    ensures r == [] || (!IsSpace(r[0]) && !IsSpace(r[|r| - 1]))
    ensures exists a :: StrippedAt(s, a, r)
  {
    var l := TrimLeft(s);
    var r := TrimRight(l);
    assert r != [] ==> r[0] == l[0];
    TrimmedAt(s);
    r
  }

  /** Trimming both ends keeps the part of `s` after its leading whitespace and before its
      trailing whitespace. */
  lemma TrimmedAt(s: string)
    ensures StrippedAt(s, |s| - |TrimLeft(s)|, TrimRight(TrimLeft(s)))
  {
    MiddleSlice(s, TrimLeft(s), TrimRight(TrimLeft(s)));
  }

  /** A suffix `l` of `s` after a run of whitespace, then a prefix `r` of `l` before a run of
      whitespace: `r` is a slice of `s` with only whitespace around it. */
  lemma MiddleSlice(s: string, l: string, r: string)
    requires |l| <= |s| && l == s[|s| - |l|..] && forall k :: 0 <= k < |s| - |l| ==> IsSpace(s[k])
    requires |r| <= |l| && r == l[..|r|] && forall k :: |r| <= k < |l| ==> IsSpace(l[k])
    ensures StrippedAt(s, |s| - |l|, r)
  {
    var a := |s| - |l|;
    forall k | a + |r| <= k < |s|
      ensures IsSpace(s[k])
    {
      assert s[k] == l[k - a];
    }
  }

  /** `r` is the part of `s` from index `a` on, with only whitespace before and after it. */
  predicate StrippedAt(s: string, a: int, r: string)
  {
    && 0 <= a && a + |r| <= |s| && r == s[a..a + |r|]
    && (forall k :: 0 <= k < a ==> IsSpace(s[k]))
    && (forall k :: a + |r| <= k < |s| ==> IsSpace(s[k]))
  }

  /** The persona text stored for raw input: stripped, then cut to its first 2000 characters. */
  function PersonalityText(raw: string): (r: string)
    ensures |r| <= MaxPersonality && |r| <= |Strip(raw)| && r == Strip(raw)[..|r|]
  {
    var s := Strip(raw);
    if |s| <= MaxPersonality then s else s[..MaxPersonality]
  }

  /** The stored text equals the stripped input when that fits and is otherwise its first 2000
      characters, and neither starts nor (unless cut) ends with whitespace. */
  lemma PersonalityTextSpec(raw: string)
    ensures |Strip(raw)| <= MaxPersonality ==> PersonalityText(raw) == Strip(raw)
    ensures |Strip(raw)| > MaxPersonality ==> |PersonalityText(raw)| == MaxPersonality
    ensures PersonalityText(raw) == [] || !IsSpace(PersonalityText(raw)[0])
    ensures |Strip(raw)| <= MaxPersonality && PersonalityText(raw) != [] ==>
      !IsSpace(PersonalityText(raw)[|PersonalityText(raw)| - 1])
  {
    var l := TrimLeft(raw);
    var s := TrimRight(l);
    if s != [] {
      assert s[0] == l[0];
    }
  }

  /** Sets the persona of the first chat group `gid` of the first account record `tid` of the
      owner; a missing owner is a lookup failure, a missing account or group changes nothing
      (handle_add_personality and handle_edit_personality). */
  function SetPersonality(g: ChatGroups, owner: int, tid: int, gid: int, text: string): (r: Option<ChatGroups>)
    ensures r.None? <==> owner !in g
    ensures r.Some? ==> r.value.Keys == g.Keys && forall o :: o in g && o != owner ==> r.value[o] == g[o]
  {
    if owner !in g then None
    else
      var accs := g[owner];
      match FirstWhere(accs, IsAccount(tid))
      case None => Some(g)
      case Some(i) =>
        match FirstWhere(accs[i].groups, IsGroup(gid))
        case None => Some(g)
        case Some(j) =>
          Some(g[owner := accs[i := accs[i].(groups := accs[i].groups[j := accs[i].groups[j].(personality := text)])]])
  }

  /** For a known owner, exactly the first group `gid` of the first account record `tid`, when
      both exist, gets the text as its persona; every other group of every record of the owner,
      and each record's id and list of groups, stay as they were. */
  lemma SetPersonalitySpec(g: ChatGroups, owner: int, tid: int, gid: int, text: string)
    requires owner in g
    ensures var g', accs := SetPersonality(g, owner, tid, gid, text).value, g[owner];
      && |g'[owner]| == |accs|
      && (forall a :: 0 <= a < |accs| ==>
            g'[owner][a].telegramId == accs[a].telegramId && |g'[owner][a].groups| == |accs[a].groups|)
      && (forall a, b :: 0 <= a < |accs| && 0 <= b < |accs[a].groups| ==>
            g'[owner][a].groups[b] ==
              if FirstWhere(accs, IsAccount(tid)) == Some(a) && FirstWhere(accs[a].groups, IsGroup(gid)) == Some(b)
              then accs[a].groups[b].(personality := text)
              else accs[a].groups[b])
      && (AccountChatGroups(g, owner, tid).Some? &&
          (exists cg :: cg in AccountChatGroups(g, owner, tid).value && cg.id == gid) ==>
          exists cg :: cg in AccountChatGroups(g', owner, tid).value && cg.id == gid && cg.personality == text)
  {
    if owner in g {
      var accs := g[owner];
      match FirstWhere(accs, IsAccount(tid))
      case None =>
      case Some(i) =>
        match FirstWhere(accs[i].groups, IsGroup(gid))
        case None =>
        case Some(j) =>
          var groups' := accs[i].groups[j := accs[i].groups[j].(personality := text)];
          var accs' := accs[i := accs[i].(groups := groups')];
          assert FirstWhere(accs', IsAccount(tid)) == Some(i) by {
            assert forall k :: 0 <= k < i ==> accs'[k] == accs[k];
            FirstWhereAt(accs', IsAccount(tid), i);
          }
          assert groups'[j] in groups';
    }
  }
}

=== FILE: registry.dfy ===
/** The registry of live connections (linked_user_clients and client_tasks) and the pass that
    reconciles it with the account directory (initialize_linked_user_clients, bot.py:1150-1204),
    together with the other places that edit it: unlinking an account (bot.py:367-391), the
    refresh of assigned chats after a directory change (bot.py:1131-1140) and the update after
    a chat group is added (bot.py:744-750). */
module Registry {
  import opened Common
  import opened Directory

  /** A live connection: the credential it was opened with, when it started, and the chats whose
      messages its listener forwards to the reply handler. */
  datatype Connection = Connection(session: string, startedAt: int, chats: seq<int>)

  /** One account record of the directory together with its owner, in directory order. */
  datatype Linked = Linked(owner: int, account: LinkedAccount)

  /** The owner's accounts, each paired with the owner. */
  function OwnerLinked(owner: int, accs: seq<LinkedAccount>): (r: seq<Linked>)
    ensures |r| == |accs|
    ensures forall j :: 0 <= j < |accs| ==> r[j] == Linked(owner, accs[j])
  {
    seq(|accs|, j requires 0 <= j < |accs| => Linked(owner, accs[j]))
  }

  /** Every account record of `u`, in the order the pass visits them. */
  function Entries(u: UserData): seq<Linked>
  {
    if u == [] then [] else Entries(u[..|u| - 1]) + OwnerLinked(u[|u| - 1].owner, u[|u| - 1].accounts)
  }

  /** Visiting the next owner. */
  lemma EntriesNext(u: UserData, i: nat)
    requires i < |u|
    ensures Entries(u[..i + 1]) == Entries(u[..i]) + OwnerLinked(u[i].owner, u[i].accounts)
  {
    assert u[..i + 1][..i] == u[..i];
  }

  /** An owner's entries are that owner paired with each of its accounts. */
  lemma OwnerLinkedHas(owner: int, accs: seq<LinkedAccount>, e: Linked)
    ensures e in OwnerLinked(owner, accs) <==> e.owner == owner && e.account in accs
  {
    if e.owner == owner && e.account in accs {
      var j :| 0 <= j < |accs| && accs[j] == e.account;
      assert OwnerLinked(owner, accs)[j] == e;
    }
  }

  /** The records of `u` are exactly the (owner, account) pairs listed under their owner. */
  lemma {:induction false} EntriesSpec(u: UserData, e: Linked)
    ensures e in Entries(u) <==> exists i :: 0 <= i < |u| && u[i].owner == e.owner && e.account in u[i].accounts
    decreases |u|
  {
    if u != [] {
      var n := |u| - 1;
      var init := u[..n];
      EntriesSpec(init, e);
      OwnerLinkedHas(u[n].owner, u[n].accounts, e);
      assert forall i :: 0 <= i < n ==> init[i] == u[i];
      if exists i :: 0 <= i < |u| && u[i].owner == e.owner && e.account in u[i].accounts {
        var i :| 0 <= i < |u| && u[i].owner == e.owner && e.account in u[i].accounts;
        if i < n {
          assert init[i] == u[i];
        }
      }
    }
  }

  /** The key a record connects under: none without a credential or when the credential is not
      authorized; otherwise the owner and the canonical id the session reports. */
  function Attempt(e: Linked, authorize: string -> Option<int>): (r: Option<Key>)
    ensures r.Some? <==> e.account.session != "" && authorize(e.account.session).Some?
    ensures r.Some? ==> r.value == Key(e.owner, authorize(e.account.session).value)
  {
    if e.account.session == "" then None
    else match authorize(e.account.session)
      case None => None
      case Some(id) => Some(Key(e.owner, id))
  }

  /** Keys of the records that connect, in visiting order, repeated when several records
      connect under the same key. */
  function Connected(es: seq<Linked>, authorize: string -> Option<int>): (r: seq<Key>)
    ensures |r| <= |es|
  {
    if es == [] then []
    else
      var prefix := Connected(es[..|es| - 1], authorize);
      match Attempt(es[|es| - 1], authorize)
      case None => prefix
      case Some(k) => prefix + [k]
  }

  /** A key is connected exactly when some record connects under it. */
  lemma {:induction false} ConnectedSpec(es: seq<Linked>, authorize: string -> Option<int>, k: Key)
    ensures k in Connected(es, authorize) <==> exists e :: e in es && Attempt(e, authorize) == Some(k)
    decreases |es|
  {
    if es != [] {
      var n := |es| - 1;
      ConnectedSpec(es[..n], authorize, k);
      assert es == es[..n] + [es[n]];
      if exists e :: e in es && Attempt(e, authorize) == Some(k) {
        var e :| e in es && Attempt(e, authorize) == Some(k);
        if e != es[n] {
          assert e in es[..n];
        }
      }
    }
  }

  /** The connection map a pass leaves for the records `es`: one connection per connected key,
      from the last record that connects under it. */
  function Clients(es: seq<Linked>, authorize: string -> Option<int>, g: ChatGroups, now: int): (r: map<Key, Connection>)
    ensures r.Keys == set k | k in Connected(es, authorize)
  {
    if es == [] then map[]
    else
      var e := es[|es| - 1];
      var prefix := Clients(es[..|es| - 1], authorize, g, now);
      match Attempt(e, authorize)
      case None => prefix
      case Some(k) => prefix[k := Connection(e.account.session, now, AssignedChats(g, k.owner, k.account))]
  }

  /** Visiting one more record. */
  lemma VisitOne(es: seq<Linked>, e: Linked, authorize: string -> Option<int>, g: ChatGroups, now: int)
    ensures Attempt(e, authorize).None? ==>
      Clients(es + [e], authorize, g, now) == Clients(es, authorize, g, now) &&
      Connected(es + [e], authorize) == Connected(es, authorize)
    ensures Attempt(e, authorize).Some? ==>
      var k := Attempt(e, authorize).value;
      Clients(es + [e], authorize, g, now) ==
        Clients(es, authorize, g, now)[k := Connection(e.account.session, now, AssignedChats(g, k.owner, k.account))] &&
      Connected(es + [e], authorize) == Connected(es, authorize) + [k]
  {
    assert (es + [e])[..|es|] == es;
  }

  /** Visiting the next account of an owner. */
  lemma OwnerLinkedNext(es: seq<Linked>, owner: int, accs: seq<LinkedAccount>, j: nat)
    requires j < |accs|
    ensures es + OwnerLinked(owner, accs[..j + 1]) == es + OwnerLinked(owner, accs[..j]) + [Linked(owner, accs[j])]
  {
    assert OwnerLinked(owner, accs[..j + 1]) == OwnerLinked(owner, accs[..j]) + [Linked(owner, accs[j])];
  }

  lemma MergeUpdate<K, V>(base: map<K, V>, c: map<K, V>, k: K, v: V)
    ensures (base + c)[k := v] == base + c[k := v]
  {
  }

  /** Every connection of the pass started at the pass's time, with a credential that authorizes
      as the key's account, listening to the chats assigned to that account. */
  lemma {:induction false} ClientsSpec(es: seq<Linked>, authorize: string -> Option<int>, g: ChatGroups, now: int, k: Key)
    requires k in Clients(es, authorize, g, now)
    ensures var c := Clients(es, authorize, g, now)[k];
      && c.startedAt == now
      && c.chats == AssignedChats(g, k.owner, k.account)
      && c.session != "" && authorize(c.session) == Some(k.account)
      && exists e :: e in es && e.owner == k.owner && e.account.session == c.session
    decreases |es|
  {
    var n := |es| - 1;
    var e := es[n];
    if Attempt(e, authorize) == Some(k) {
      assert es[n] in es;
    } else {
      ClientsSpec(es[..n], authorize, g, now, k);
      var e' :| e' in es[..n] && e'.owner == k.owner && e'.account.session == Clients(es[..n], authorize, g, now)[k].session;
      assert e' in es;
    }
  }

  /** After a completed pass the live keys are exactly the (owner, canonical id) pairs of the
      directory's accounts that have a credential which authorizes. */
  lemma DesiredKeys(u: UserData, authorize: string -> Option<int>, g: ChatGroups, now: int, k: Key)
    ensures k in Clients(Entries(u), authorize, g, now) <==>
      exists i, j :: 0 <= i < |u| && 0 <= j < |u[i].accounts| && u[i].owner == k.owner &&
        u[i].accounts[j].session != "" && authorize(u[i].accounts[j].session) == Some(k.account)
  {
    var es := Entries(u);
    ConnectedSpec(es, authorize, k);
    if k in Clients(es, authorize, g, now) {
      var e :| e in es && Attempt(e, authorize) == Some(k);
      EntriesSpec(u, e);
      var i :| 0 <= i < |u| && u[i].owner == e.owner && e.account in u[i].accounts;
      var j :| 0 <= j < |u[i].accounts| && u[i].accounts[j] == e.account;
    }
    if exists i, j :: 0 <= i < |u| && 0 <= j < |u[i].accounts| && u[i].owner == k.owner &&
        u[i].accounts[j].session != "" && authorize(u[i].accounts[j].session) == Some(k.account) {
      var i, j :| 0 <= i < |u| && 0 <= j < |u[i].accounts| && u[i].owner == k.owner &&
        u[i].accounts[j].session != "" && authorize(u[i].accounts[j].session) == Some(k.account);
      var e := Linked(u[i].owner, u[i].accounts[j]);
      EntriesSpec(u, e);
      assert e.account in u[i].accounts;
      assert Attempt(e, authorize) == Some(k);
    }
  }

  /** The record as the pass leaves it: a connected account whose stored id differs from the
      canonical one gets the canonical id (bot.py:1171-1174). */
  function CorrectAccount(owner: int, a: LinkedAccount, authorize: string -> Option<int>): (r: LinkedAccount)
    ensures r == a.(telegramId := r.telegramId)
    ensures Attempt(Linked(owner, a), authorize).Some? ==>
      r.telegramId == Attempt(Linked(owner, a), authorize).value.account
    ensures Attempt(Linked(owner, a), authorize).None? ==> r == a
  {
    match Attempt(Linked(owner, a), authorize)
    case None => a
    case Some(k) => if a.telegramId != k.account then a.(telegramId := k.account) else a
  }

  /** One owner's records as the pass saves them. */
  function CorrectOwner(owner: int, accs: seq<LinkedAccount>, authorize: string -> Option<int>): (r: seq<LinkedAccount>)
    ensures |r| == |accs|
    ensures forall j :: 0 <= j < |accs| ==> r[j].session == accs[j].session
  {
    seq(|accs|, j requires 0 <= j < |accs| => CorrectAccount(owner, accs[j], authorize))
  }

  /** `user_data` as the pass saves it. */
  function Corrected(u: UserData, authorize: string -> Option<int>): (r: UserData)
    ensures |r| == |u|
    ensures forall i :: 0 <= i < |u| ==> r[i].owner == u[i].owner && |r[i].accounts| == |u[i].accounts|
  {
    seq(|u|, i requires 0 <= i < |u| => u[i].(accounts := CorrectOwner(u[i].owner, u[i].accounts, authorize)))
  }

  /** The correction touches only the stored id of connected accounts, which afterwards equals
      the canonical id; a second pass finds nothing to correct. */
  lemma CorrectedSpec(u: UserData, authorize: string -> Option<int>)
    ensures var r := Corrected(u, authorize);
      && (forall i :: 0 <= i < |u| ==> r[i].owner == u[i].owner && |r[i].accounts| == |u[i].accounts|)
      && (forall i, j :: 0 <= i < |u| && 0 <= j < |u[i].accounts| ==>
            var a, b := u[i].accounts[j], r[i].accounts[j];
            && b == a.(telegramId := b.telegramId)
            && (Attempt(Linked(u[i].owner, a), authorize).Some? ==>
                  b.telegramId == Attempt(Linked(u[i].owner, a), authorize).value.account)
            && (Attempt(Linked(u[i].owner, a), authorize).None? ==> b == a))
      && Corrected(r, authorize) == r
  {
    var r := Corrected(u, authorize);
    var r2 := Corrected(r, authorize);
    forall i | 0 <= i < |u| ensures r2[i] == r[i] {
      assert r2[i].accounts == r[i].accounts;
    }
  }

  /** Dropping the keys live before a pass and not connected by it leaves exactly the pass's
      connections, and the listener tasks follow them. */
  lemma StaleDropped(base: map<Key, Connection>, baseTasks: set<Key>, c: map<Key, Connection>)
    requires baseTasks == base.Keys
    ensures (base + c) - (base.Keys - c.Keys) == c
    ensures (baseTasks + c.Keys) - (base.Keys - c.Keys) == c.Keys
  {
    assert ((base + c) - (base.Keys - c.Keys)).Keys == c.Keys;
  }

  /** The live-connection registry of the process. */
  class Registry {
    /** linked_user_clients: the live connection of each key. */
    var clients: map<Key, Connection>
    /** client_tasks: the keys whose listener task is registered. */
    var tasks: set<Key>
    /** Every autopost loop started so far, by key, in order of start; none is ever stopped. */
    var autoposts: seq<Key>

    /** Exactly the keys with a live connection have a registered listener task. */
    predicate Valid()
      reads this
    {
      tasks == clients.Keys
    }

    constructor ()
      ensures Valid()
      ensures clients == map[] && tasks == {} && autoposts == []
    {
      clients := map[];
      tasks := {};
      autoposts := [];
    }

    /** One reconciliation pass over the directory `u`: every account with a credential that
        authorizes gets a new connection (replacing any existing one), its stored id corrected,
        a new listener task and a new autopost loop; keys live before the pass and not
        connected by it are dropped from both maps. `authorize` stands for opening the session
        and asking for the account's own id; `now` for the connection's start time. Returns
        the directory as saved. */
    method Reconcile(u: UserData, g: ChatGroups, authorize: string -> Option<int>, now: int) returns (saved: UserData)
      requires Valid()
      modifies this
      ensures Valid()
      ensures clients == Clients(Entries(u), authorize, g, now)
      ensures tasks == (old(tasks) - (old(clients).Keys - clients.Keys)) + clients.Keys
      ensures autoposts == old(autoposts) + Connected(Entries(u), authorize)
      ensures saved == Corrected(u, authorize)
    {
      ghost var es: seq<Linked> := [];
      var existing := clients.Keys;
      var live: set<Key> := {};
      saved := u;
      var i := 0;
      while i < |u|
        invariant 0 <= i <= |u|
        invariant es == Entries(u[..i])
        invariant clients == old(clients) + Clients(es, authorize, g, now)
        invariant live == Clients(es, authorize, g, now).Keys
        invariant tasks == old(tasks) + live
        invariant autoposts == old(autoposts) + Connected(es, authorize)
        invariant |saved| == |u|
        invariant forall i' :: 0 <= i' < i ==> saved[i'] == Corrected(u, authorize)[i']
        invariant forall i' :: i <= i' < |u| ==> saved[i'] == u[i']
      {
        var accs;
        accs, live := ConnectOwner(old(clients), old(tasks), old(autoposts), es, u[i].owner, u[i].accounts, g, authorize, now, live);
        es := es + OwnerLinked(u[i].owner, u[i].accounts);
        EntriesNext(u, i);
        saved := saved[i := u[i].(accounts := accs)];
        i := i + 1;
      }
      assert u[..i] == u;
      DropStale(existing - live);
      StaleDropped(old(clients), old(tasks), Clients(es, authorize, g, now));
    }

    /** The pass over one owner's accounts (the inner loop of the reconciliation pass). */
    method ConnectOwner(ghost base: map<Key, Connection>, ghost baseTasks: set<Key>, ghost baseLog: seq<Key>,
                        ghost es: seq<Linked>, owner: int, accs: seq<LinkedAccount>, g: ChatGroups,
                        authorize: string -> Option<int>, now: int, live: set<Key>)
      returns (fixed: seq<LinkedAccount>, live': set<Key>)
      requires clients == base + Clients(es, authorize, g, now)
      requires live == Clients(es, authorize, g, now).Keys
      requires tasks == baseTasks + live && autoposts == baseLog + Connected(es, authorize)
      modifies this
      ensures clients == base + Clients(es + OwnerLinked(owner, accs), authorize, g, now)
      ensures live' == Clients(es + OwnerLinked(owner, accs), authorize, g, now).Keys
      ensures tasks == baseTasks + live' && autoposts == baseLog + Connected(es + OwnerLinked(owner, accs), authorize)
      ensures fixed == CorrectOwner(owner, accs, authorize)
    {
      ghost var done := es;
      fixed, live' := accs, live;
      var j := 0;
      while j < |accs|
        invariant 0 <= j <= |accs| == |fixed|
        invariant done == es + OwnerLinked(owner, accs[..j])
        invariant clients == base + Clients(done, authorize, g, now)
        invariant live' == Clients(done, authorize, g, now).Keys
        invariant tasks == baseTasks + live' && autoposts == baseLog + Connected(done, authorize)
        invariant forall j' :: 0 <= j' < j ==> fixed[j'] == CorrectAccount(owner, accs[j'], authorize)
        invariant forall j' :: j <= j' < |accs| ==> fixed[j'] == accs[j']
      {
        var acc;
        acc, live' := ConnectAccount(base, baseTasks, baseLog, done, owner, accs[j], g, authorize, now, live');
        fixed := fixed[j := acc];
        OwnerLinkedNext(es, owner, accs, j);
        done := done + [Linked(owner, accs[j])];
        j := j + 1;
      }
      assert accs[..j] == accs;
      assert forall j' :: 0 <= j' < |accs| ==> fixed[j'] == CorrectOwner(owner, accs, authorize)[j'];
    }

    /** The pass over one account record: skipped without a credential or when the session is
        not authorized; otherwise the stored id is corrected and the key connected, with a new
        listener task and a new autopost loop. */
    method ConnectAccount(ghost base: map<Key, Connection>, ghost baseTasks: set<Key>, ghost baseLog: seq<Key>,
                          ghost done: seq<Linked>, owner: int, acc: LinkedAccount, g: ChatGroups,
                          authorize: string -> Option<int>, now: int, live: set<Key>)
      returns (fixed: LinkedAccount, live': set<Key>)
      requires clients == base + Clients(done, authorize, g, now)
      requires live == Clients(done, authorize, g, now).Keys
      requires tasks == baseTasks + live && autoposts == baseLog + Connected(done, authorize)
      modifies this
      ensures clients == base + Clients(done + [Linked(owner, acc)], authorize, g, now)
      ensures live' == Clients(done + [Linked(owner, acc)], authorize, g, now).Keys
      ensures tasks == baseTasks + live' && autoposts == baseLog + Connected(done + [Linked(owner, acc)], authorize)
      ensures fixed == CorrectAccount(owner, acc, authorize)
    {
      VisitOne(done, Linked(owner, acc), authorize, g, now);
      fixed, live' := acc, live;
      if acc.session == "" {
        return;
      }
      var id := authorize(acc.session);
      if id.None? {
        return;
      }
      if acc.telegramId != id.value {
        fixed := acc.(telegramId := id.value);
      }
      var k := Key(owner, id.value);
      var c := Connection(acc.session, now, AssignedChats(g, owner, id.value));
      MergeUpdate(base, Clients(done, authorize, g, now), k, c);
      live' := live' + {k};
      clients := clients[k := c];
      autoposts := autoposts + [k];
      tasks := tasks + {k};
    }

    /** The closing loop of the pass: the connections and listener tasks of `stale` keys go. */
    method DropStale(stale: set<Key>)
      modifies this
      ensures clients == old(clients) - stale && tasks == old(tasks) - stale
      ensures autoposts == old(autoposts)
    {
      var rest := stale;
      while rest != {}
        invariant rest <= stale
        invariant clients == old(clients) - (stale - rest) && tasks == old(tasks) - (stale - rest)
        invariant autoposts == old(autoposts)
        decreases rest
      {
        var k :| k in rest;
        if k in clients {
          clients := clients - {k};
        }
        if k in tasks {
          tasks := tasks - {k};
        }
        rest := rest - {k};
      }
    }

    /** unlink_account: both directories lose every record of `tid` under `owner`, and the
        key's connection and listener task are dropped when present. Its autopost loop is not
        stopped. Returns the directories as saved. */
    method UnlinkAccount(u: UserData, g: ChatGroups, owner: int, tid: int) returns (u': UserData, g': ChatGroups)
      requires Valid()
      modifies this
      ensures Valid()
      ensures u' == UnlinkUsers(u, owner, tid) && g' == UnlinkGroups(g, owner, tid)
      ensures clients == old(clients) - {Key(owner, tid)}
      ensures tasks == old(tasks) - {Key(owner, tid)}
      ensures autoposts == old(autoposts)
    {
      u' := UnlinkUsers(u, owner, tid);
      g' := UnlinkGroups(g, owner, tid);
      var k := Key(owner, tid);
      if k in clients {
        clients := clients - {k};
      }
      if k in tasks {
        tasks := tasks - {k};
      }
    }

    /** After a change of `chat_groups`: every live connection listens to exactly the chats
        now assigned to its account, or to none when the account has no record. */
    method RefreshChats(g: ChatGroups)
      requires Valid()
      modifies this
      ensures Valid()
      ensures clients.Keys == old(clients).Keys
      ensures forall k :: k in clients ==>
        clients[k] == old(clients)[k].(chats := AssignedChats(g, k.owner, k.account))
      ensures tasks == old(tasks) && autoposts == old(autoposts)
    {
      clients := map k | k in clients :: clients[k].(chats := AssignedChats(g, k.owner, k.account));
    }

    /** After a chat group is added: the live connection of the key, if any, starts listening
        to the chat unless it already does. */
    method NoteAddedChat(k: Key, chat: int)
      requires Valid()
      modifies this
      ensures Valid()
      ensures k in clients ==> chat in clients[k].chats
      ensures clients.Keys == old(clients).Keys
      ensures forall k' :: k' in clients && k' != k ==> clients[k'] == old(clients)[k']
      ensures k in clients ==> clients[k] == old(clients)[k].(chats :=
        if chat in old(clients)[k].chats then old(clients)[k].chats else old(clients)[k].chats + [chat])
      ensures tasks == old(tasks) && autoposts == old(autoposts)
    {
      if k in clients && chat !in clients[k].chats {
        clients := clients[k := clients[k].(chats := clients[k].chats + [chat])];
      }
    }
  }

  // ---------------------------------------------------------------------------
  // One autopost loop per live connection

  predicate NoRepeats(s: seq<Key>)
  {
    forall i, j :: 0 <= i < j < |s| ==> s[i] != s[j]
  }

  /** As written, every pass starts a new autopost loop for every account it connects, whether
      or not one is already running: a second pass over a directory with a connected account
      leaves two loops for that account. */
  lemma PassesDuplicateAutopost(log: seq<Key>, u: UserData, authorize: string -> Option<int>)
    requires Connected(Entries(u), authorize) != []
    ensures var c := Connected(Entries(u), authorize);
      !NoRepeats(log + c + c)
  {
    var c := Connected(Entries(u), authorize);
    var s := log + c + c;
    assert s[|log|] == c[0] && s[|log| + |c|] == c[0];
  }

  /** The keys of `s` not in `seen`, each once, in order of first appearance. */
  function Distinct(s: seq<Key>, seen: set<Key>): (r: seq<Key>)
    ensures NoRepeats(r)
    ensures forall k :: k in r <==> k in s && k !in seen
    decreases |s|
  {
    if s == [] then []
    else if s[0] in seen then Distinct(s[1..], seen)
    else [s[0]] + Distinct(s[1..], seen + {s[0]})
  }

  function Among(keys: set<Key>): Key -> bool
  {
    (k: Key) => k in keys
  }

  /** The autopost loops after a pass that keeps the running loops of connected keys, stops
      the others, and starts one loop for each connected key without one. */
  function LoopsAfterPass(running: seq<Key>, es: seq<Linked>, authorize: string -> Option<int>): seq<Key>
  {
    var connected := set k | k in Connected(es, authorize);
    Filter(running, Among(connected)) + Distinct(Connected(es, authorize), set k | k in running)
  }

  /** With the corrected pass, every connected key has exactly one autopost loop and no other
      key has one, whatever loops ran before, provided those were one per key. */
  lemma OneLoopPerConnection(running: seq<Key>, es: seq<Linked>, authorize: string -> Option<int>)
    requires NoRepeats(running)
    ensures var r := LoopsAfterPass(running, es, authorize);
      && NoRepeats(r)
      && forall k :: k in r <==> k in Connected(es, authorize)
  {
    var connected := set k | k in Connected(es, authorize);
    var kept := Filter(running, Among(connected));
    var started := Distinct(Connected(es, authorize), set k | k in running);
    FilterKeepsDistinct(running, Among(connected));
    forall k ensures k in kept <==> k in running && k in connected {
      FilterMembership(running, Among(connected), k);
    }
    var r := kept + started;
    forall i, j | 0 <= i < j < |r| ensures r[i] != r[j] {
      if j >= |kept| && i < |kept| {
        assert r[i] in kept && r[j] in started;
      }
    }
  }

  /** Filtering keeps distinct elements distinct. */
  lemma {:induction false} FilterKeepsDistinct(s: seq<Key>, keep: Key -> bool)
    requires NoRepeats(s)
    ensures NoRepeats(Filter(s, keep))
    decreases |s|
  {
    if s != [] {
      var n := |s| - 1;
      FilterKeepsDistinct(s[..n], keep);
      if keep(s[n]) {
        var f := Filter(s[..n], keep);
        FilterMembership(s[..n], keep, s[n]);
        assert s[n] !in s[..n];
        assert s[n] !in f;
        forall i | 0 <= i < |f| ensures f[i] != s[n] {
          assert f[i] in f;
        }
      }
    }
  }
}

=== FILE: reply.dfy ===
/** The reply engine: the ordered chain of checks `handle_linked_user_message` applies to an
    inbound message (bot.py:860-975), preceded by the listener's chat filter (bot.py:1188-1191),
    and the handler itself, which consults and updates the activity tracker. */
module Reply {
  import opened Common
  import opened Directory
  import opened Activity

  /** The resolved author of a message. */
  datatype Sender = Sender(id: int, bot: bool)

  /** An inbound message as the handler sees it. `sender` is None when the author cannot be
      resolved; `repliedToSender` is the author id of the message replied to, None when that
      message or its author is unavailable. */
  datatype Message = Message(
    id: int,
    chat: int,
    date: int,
    text: string,
    sender: Option<Sender>,
    isReply: bool,
    repliedToSender: Option<int>)

  /** What the transport reports for one send. */
  datatype SendResult = Sent | FloodWait(seconds: nat) | SendFailed

  /** The fixed facts of one handler run: the owner, the linked account's canonical id, the
      connection's start time, the time the handler started, the owner's tier, the chats the
      listener forwards, and the link detector. */
  datatype Context = Context(
    owner: int,
    me: int,
    startedAt: int,
    now: int,
    isMember: bool,
    listened: seq<int>,
    containsLink: string -> bool)

  datatype Skip =
    | NotListened | OwnMessage | Backlog | HasLink | NoText | NoAccount | NotAssigned
    | QuotaFull | NotThreadReply | NoOriginal | NotToAccount | FromBot | AlreadyReplied

  /** The reasons reported before the activity tracker is consulted. */
  predicate ScreenReason(r: Skip)
  {
    r.NotListened? || r.OwnMessage? || r.Backlog? || r.HasLink? || r.NoText? || r.NoAccount? || r.NotAssigned?
  }

  /** Either the first check that failed, or the persona to answer with. */
  datatype Verdict = Skipped(reason: Skip) | Respond(personality: string)

  /** The checks that do not consult the activity tracker, in the source's order: the first
      that fails, or the persona of the chat's first group record when all pass. */
  function Screen(ctx: Context, m: Message, g: ChatGroups): (r: Verdict)
    ensures r.Skipped? ==> ScreenReason(r.reason)
    ensures r.Respond? ==>
      m.chat in ctx.listened && m.date >= ctx.startedAt && !ctx.containsLink(m.text) && m.text != ""
  {
    if m.chat !in ctx.listened then Skipped(NotListened)
    else if m.sender.Some? && m.sender.value.id == ctx.me then Skipped(OwnMessage)
    else if m.date < ctx.startedAt then Skipped(Backlog)
    else if ctx.containsLink(m.text) then Skipped(HasLink)
    else if m.text == "" then Skipped(NoText)
    else match AccountChatGroups(g, ctx.owner, ctx.me)
      case None => Skipped(NoAccount)
      case Some(groups) =>
        match FirstWhere(groups, IsGroup(m.chat))
        case None => Skipped(NotAssigned)
        case Some(j) => Respond(groups[j].personality)
  }

  /** The checks from the quota onwards, given the tracker's entries for the chat. */
  function Decide(ctx: Context, m: Message, ts: seq<int>, replied: set<int>, personality: string): (r: Verdict)
    ensures r.Skipped? ==> !ScreenReason(r.reason)
    ensures r.Respond? ==> r.personality == personality && Admits(ts, ctx.now, ctx.isMember) && m.id !in replied
  {
    if !Admits(ts, ctx.now, ctx.isMember) then Skipped(QuotaFull)
    else if !m.isReply then Skipped(NotThreadReply)
    else if m.repliedToSender.None? || m.repliedToSender.value == 0 then Skipped(NoOriginal)
    else if m.repliedToSender.value != ctx.me then Skipped(NotToAccount)
    else if m.sender.Some? && m.sender.value.bot then Skipped(FromBot)
    else if m.id in replied then Skipped(AlreadyReplied)
    else Respond(personality)
  }

  /** The whole chain, short-circuiting on the first failure. `ts` and `replied` are the
      tracker's entries for this chat before the handler runs. */
  function Evaluate(ctx: Context, m: Message, g: ChatGroups, ts: seq<int>, replied: set<int>): (r: Verdict)
    ensures Screen(ctx, m, g).Skipped? <==> r.Skipped? && ScreenReason(r.reason)
    ensures r.Respond? ==> Admits(ts, ctx.now, ctx.isMember) && m.id !in replied
  {
    match Screen(ctx, m, g)
    case Skipped(r) => Skipped(r)
    case Respond(p) => Decide(ctx, m, ts, replied, p)
  }

  /** The conditions under which a reply is attempted, as one conjunction. */
  predicate AllChecksPass(ctx: Context, m: Message, g: ChatGroups, ts: seq<int>, replied: set<int>)
  {
    && m.chat in ctx.listened
    && !(m.sender.Some? && m.sender.value.id == ctx.me)
    && m.date >= ctx.startedAt
    && !ctx.containsLink(m.text)
    && m.text != ""
    && m.chat in AssignedChats(g, ctx.owner, ctx.me)
    && Admits(ts, ctx.now, ctx.isMember)
    && m.isReply
    && m.repliedToSender == Some(ctx.me) && ctx.me != 0
    && !(m.sender.Some? && m.sender.value.bot)
    && m.id !in replied
  }

  /** A reply is attempted exactly when every check passes, and then with the persona of the
      chat's first group record. */
  lemma RespondIffAllPass(ctx: Context, m: Message, g: ChatGroups, ts: seq<int>, replied: set<int>)
    ensures Evaluate(ctx, m, g, ts, replied).Respond? <==> AllChecksPass(ctx, m, g, ts, replied)
    ensures Evaluate(ctx, m, g, ts, replied).Respond? ==>
      var groups := AccountChatGroups(g, ctx.owner, ctx.me).value;
      exists j :: 0 <= j < |groups| && groups[j].id == m.chat && (forall l :: 0 <= l < j ==> groups[l].id != m.chat) &&
        groups[j].personality == Evaluate(ctx, m, g, ts, replied).personality
  {
    match AccountChatGroups(g, ctx.owner, ctx.me)
    case None =>
    case Some(groups) =>
      match FirstWhere(groups, IsGroup(m.chat))
      case None =>
        assert forall cg :: cg in groups ==> cg.id != m.chat by {
          forall cg | cg in groups ensures cg.id != m.chat {
            var i :| 0 <= i < |groups| && groups[i] == cg;
            assert !IsGroup(m.chat)(groups[i]);
          }
        }
      case Some(j) =>
        assert forall l :: 0 <= l < j ==> groups[l].id != m.chat by {
          forall l | 0 <= l < j ensures groups[l].id != m.chat {
            assert !IsGroup(m.chat)(groups[l]);
          }
        }
  }

  /** The send with its single retry after a flood wait; any other failure, or a failed retry,
      abandons the reply (bot.py:954-966). */
  predicate Delivered(first: SendResult, retry: SendResult): (r: bool)
    ensures first.SendFailed? ==> !r
    ensures first.FloodWait? ==> (r <==> retry.Sent?)
    ensures first.Sent? ==> r
  {
    first.Sent? || (first.FloodWait? && retry.Sent?)
  }

  /** `handle_linked_user_message` for one event: runs the chain, touching the tracker exactly
      as the source does, sends when the chain accepts, and records the send only when it
      went through. Within one run, taken here as an atomic step, the pre-reply delay and the
      text generation do not affect the outcome.
      Only a run that passes the screening creates and prunes the chat's tracker entries. */
  method HandleMessage(t: Tracker, ctx: Context, m: Message, g: ChatGroups, first: SendResult, retry: SendResult)
    returns (v: Verdict, sent: bool)
    modifies t
    ensures v == Evaluate(ctx, m, g, old(t.Sent(Key(ctx.owner, ctx.me), m.chat)), old(t.Replied(Key(ctx.owner, ctx.me), m.chat)))
    ensures sent <==> v.Respond? && Delivered(first, retry)
    ensures t.autoreplies == old(t.autoreplies)
    ensures Screen(ctx, m, g).Skipped? ==> t.messages == old(t.messages) && t.replies == old(t.replies)
    ensures Screen(ctx, m, g).Respond? ==>
      && t.messages == Put(old(t.messages), Key(ctx.owner, ctx.me), m.chat,
           Pruned(old(t.Sent(Key(ctx.owner, ctx.me), m.chat)), ctx.now) + (if sent then [ctx.now] else []))
      && t.replies == Put(old(t.replies), Key(ctx.owner, ctx.me), m.chat,
           old(t.Replied(Key(ctx.owner, ctx.me), m.chat)) + (if sent then {m.id} else {}))
  {
    if m.chat !in ctx.listened {
      return Skipped(NotListened), false;
    }
    if m.sender.Some? && m.sender.value.id == ctx.me {
      return Skipped(OwnMessage), false;
    }
    if m.date < ctx.startedAt {
      return Skipped(Backlog), false;
    }
    if ctx.containsLink(m.text) {
      return Skipped(HasLink), false;
    }
    if m.text == "" {
      return Skipped(NoText), false;
    }
    var account := AccountChatGroups(g, ctx.owner, ctx.me);
    if account.None? {
      return Skipped(NoAccount), false;
    }
    var at := FirstWhere(account.value, IsGroup(m.chat));
    if at.None? {
      return Skipped(NotAssigned), false;
    }
    v, sent := Answer(t, ctx, m, account.value[at.value].personality, first, retry);
  }

  /** The part of the handler after the screening: the quota check on the pruned entries,
      the thread checks, the duplicate check, the send and the record of a delivered reply. */
  method Answer(t: Tracker, ctx: Context, m: Message, personality: string, first: SendResult, retry: SendResult)
    returns (v: Verdict, sent: bool)
    modifies t
    ensures v == Decide(ctx, m, old(t.Sent(Key(ctx.owner, ctx.me), m.chat)), old(t.Replied(Key(ctx.owner, ctx.me), m.chat)), personality)
    ensures sent <==> v.Respond? && Delivered(first, retry)
    ensures t.autoreplies == old(t.autoreplies)
    ensures t.messages == Put(old(t.messages), Key(ctx.owner, ctx.me), m.chat,
      Pruned(old(t.Sent(Key(ctx.owner, ctx.me), m.chat)), ctx.now) + (if sent then [ctx.now] else []))
    ensures t.replies == Put(old(t.replies), Key(ctx.owner, ctx.me), m.chat,
      old(t.Replied(Key(ctx.owner, ctx.me), m.chat)) + (if sent then {m.id} else {}))
  {
    var k := Key(ctx.owner, ctx.me);
    ghost var ts, replied := t.Sent(k, m.chat), t.Replied(k, m.chat);
    var ok := t.Admit(k, m.chat, ctx.now, ctx.isMember);
    assert Pruned(ts, ctx.now) + [] == Pruned(ts, ctx.now);
    assert replied + {} == replied;
    sent := false;
    if !ok {
      return Skipped(QuotaFull), false;
    }
    if !m.isReply {
      return Skipped(NotThreadReply), false;
    }
    if m.repliedToSender.None? || m.repliedToSender.value == 0 {
      return Skipped(NoOriginal), false;
    }
    if m.repliedToSender.value != ctx.me {
      return Skipped(NotToAccount), false;
    }
    if m.sender.Some? && m.sender.value.bot {
      return Skipped(FromBot), false;
    }
    if m.id in t.Replied(k, m.chat) {
      return Skipped(AlreadyReplied), false;
    }
    v := Respond(personality);
    if Delivered(first, retry) {
      t.RecordReply(k, m.chat, ctx.now, m.id);
      PutTwice(old(t.messages), k, m.chat, Pruned(ts, ctx.now), Pruned(ts, ctx.now) + [ctx.now]);
      PutTwice(old(t.replies), k, m.chat, replied, replied + {m.id});
      sent := true;
    }
  }

  /** The same message is never answered twice: once a reply to it has been recorded, a
      redelivery of the event is skipped, at any later time and whatever other runs did to
      the chat's entries meanwhile, since the replied set only grows (`replied'` holds the
      earlier set and the id). */
  lemma NoSecondReply(ctx: Context, m: Message, g: ChatGroups, ts: seq<int>, replied: set<int>,
                      ctx': Context, g': ChatGroups, ts': seq<int>, replied': set<int>)
    requires Evaluate(ctx, m, g, ts, replied).Respond?
    requires replied + {m.id} <= replied'
    ensures !Evaluate(ctx', m, g', ts', replied').Respond?
  {
    RespondIffAllPass(ctx', m, g', ts', replied');
  }

  /** Messages written by the linked account itself, or containing a link, are never answered. */
  lemma NeverOwnOrLinked(ctx: Context, m: Message, g: ChatGroups, ts: seq<int>, replied: set<int>)
    requires (m.sender.Some? && m.sender.value.id == ctx.me) || ctx.containsLink(m.text)
    ensures !Evaluate(ctx, m, g, ts, replied).Respond?
  {
  }

  /** For a non-member, one recorded reply in the window blocks the next qualifying message in
      that chat; once that reply is 7 hours old the same message is answered. */
  lemma NonMemberQuotaScenario(ctx: Context, m: Message, g: ChatGroups, sentAt: int, replied: set<int>)
    requires !ctx.isMember
    requires AllChecksPass(ctx.(isMember := true), m, g, [], replied)
    ensures sentAt <= ctx.now < sentAt + Window ==> Evaluate(ctx, m, g, [sentAt], replied) == Skipped(QuotaFull)
    ensures ctx.now >= sentAt + Window ==> Evaluate(ctx, m, g, [sentAt], replied).Respond?
  {
    RespondIffAllPass(ctx.(isMember := true), m, g, [], replied);
    if sentAt <= ctx.now < sentAt + Window {
      QuotaExhausted([sentAt], ctx.now, false);
    }
    if ctx.now >= sentAt + Window {
      AgedSendFreesQuota([sentAt], ctx.now, false, 0);
      RespondIffAllPass(ctx, m, g, [sentAt], replied);
    }
  }
}
